=== FILE: README.md ===
# Birds NZ Classifieds — a verified model of the listing core

Birds NZ Classifieds is a single-page classifieds site for New Zealand bird
keepers. Listings (birds, equipment, food, supplies and "wanted" notices) live
in the browser's local storage. Visitors browse them through a filter and
sort query, read them on cards and in a photo gallery, and create them
through validated forms. This project models the logic behind those screens
in Dafny and proves what it promises:

- **Listing store** (`storage.dfy`, `listing.dfy`). The persisted object
  `{ listings, myListingIds }` is the class `Storage.Store`:
  - the store is seeded with ten sample listings on first use;
  - listings are added at the front, with their id recorded as "mine";
  - a listing is updated by the spread `{ ...listing, ...updates }`;
  - a listing is deleted from both sequences;
  - there are find, ownership and "my listings" queries.

  The store invariant is that ids are unique and every owned id names a
  stored listing. Adding, deleting, and updating without an `id` field all
  preserve it.
- **Browse query** (`query.dfy`). The `filteredListings` computation of the
  `useListings` hook does two things:
  - it copies the listings and runs them through a chain of optional
    filters: status (default "active"), type, case-insensitive search,
    location, and inclusive price bounds;
  - it then sorts stably by price or by date, newest first.

  The method is proved against a selection function and an insertion sort.
  The result is exactly the matching listings, sorted, with ties in input
  order.
- **Form validation** (`validation.dfy`, `text.dfy`):
  - the e-mail pattern and the two-alternative New Zealand phone pattern,
    written as predicates over strings;
  - the listing and contact validators, which record one message per failing
    field.
- **Image checks** (`image_helper.dfy`):
  - the per-file MIME type and 10 MB check;
  - the selection check (a count bound, then the first failing file wins);
  - the truncation of a selection to `maxCount` files;
  - the dimension rule of `resizeImage`, over reals.
- **Photo gallery** (`image_gallery.dfy`): the `currentIndex` state of the
  viewer, moved cyclically by the arrows and set by the thumbnails.
- **Listing card** (`listing_card.dfy`): the relative age label, the category
  badge colour and the category display name.
- **Browse page** (`listings_page.dfy`):
  - the filter state read from and written back to the URL query
    parameters, with the round trip between them;
  - the handlers that change one filter at a time;
  - the "Clear Filters" button.

Times are integer milliseconds since the Unix epoch. Prices are reals. The
current time and the id of a new listing are parameters. Strings are
sequences of characters, with ASCII case mapping and ASCII white space.

### Behaviour of the code worth knowing

The model keeps each of these as the code has it:

- `updateListing` spreads the update after the stored listing
  (`src/utils/storage.js:211`), so an update that carries `id` or
  `datePosted` replaces them. `Storage.UpdateCanDuplicateId` shows such an
  update leaving two listings with the same id. The store invariant is proved
  for updates without an `id` field.
- The browse page offers the order `date-asc`, labelled "Oldest First"
  (`src/pages/ListingsPage.jsx:113`). The sort in
  `src/hooks/useListings.js:71-78` has branches only for `price-asc` and
  `price-desc`, so `date-asc` sorts newest first.
  `ListingQuery.OldestFirstSortsNewestFirst` states this.
- `addListing` takes the new id from `Date.now()` and does not check it
  against the stored ids (`src/utils/storage.js:196`).
  `Storage.Store.AddListing` therefore takes the id as a parameter that must
  not be in use.

## Model

| member | source | states |
|---|---|---|
| ListingModel.MergeNoChanges | src/utils/storage.js:211 | Spreading an empty update object leaves the listing unchanged |
| ListingModel.MergeIdempotent | src/utils/storage.js:211 | Applying the same update twice gives the same listing as applying it once |
| ListingModel.MergeThen | src/utils/storage.js:211 | Two successive updates equal one update in which the later update's fields win field by field |
| ListingModel.MergeUpdatesWin | src/utils/storage.js:211 | An `id` or `datePosted` present in the update replaces the stored one; an absent one is kept |
| Storage.SeedIds | src/utils/storage.js:7-160 | The seed holds ten listings whose ids are "1" to "10", in that order |
| Storage.SeedActiveInEveryCategory | src/utils/storage.js:7-160 | Every seed listing is active and each of the five categories occurs among them |
| Storage.SeedConsistent | src/utils/storage.js:7-160 | The seed with its empty owned-id list satisfies the store invariant (unique ids, no dangling owned id) |
| Storage.FindIndex | src/utils/storage.js:209 | `findIndex`: None exactly when no listing has the id; otherwise the index of a listing with that id, with none earlier |
| Storage.FindListing | src/utils/storage.js:186-189 | `getListing`: None exactly when no listing has the id; otherwise the earliest listing carrying it |
| Storage.RemoveListing | src/utils/storage.js:221 | Every listing with the id is gone and every other listing keeps its multiplicity and relative order (a subsequence) |
| Storage.RemoveId | src/utils/storage.js:222 | Every occurrence of the id is gone from the owned ids; the others keep multiplicity and order |
| Storage.Owned | src/utils/storage.js:227-230 | `getMyListings`: exactly the listings whose id is owned, each with its multiplicity, as a subsequence of the store |
| Storage.Stamped | src/utils/storage.js:194-199 | The created listing has the new id, the current time and status "active"; every other field is the caller's |
| Storage.Store.constructor | src/utils/storage.js:5-6 | A browser whose storage slot holds nothing |
| Storage.Store.Data | src/utils/storage.js:169-172 | `getData`: the stored object when the slot holds data, otherwise the seed, which satisfies the store invariant |
| Storage.Store.GetListings | src/utils/storage.js:180-183 | The stored listings, or the ten seed listings when nothing is stored |
| Storage.Store.GetListing | src/utils/storage.js:186-189 | Nothing exactly when no listing has the id; otherwise the earliest stored listing carrying it, as `find` returns |
| Storage.Store.GetMyListings | src/utils/storage.js:227-230 | Each stored listing whose id is owned, with its multiplicity, and no other, as a subsequence of the listings |
| Storage.Store.IsMyListing | src/utils/storage.js:233-236 | `includes`: true exactly when the id occurs among the owned ids; in a consistent store an owned id is found by `getListing` |
| Storage.Store.Initialize | src/utils/storage.js:4-166 | With nothing stored, the seed and an empty owned-id list are written and returned; with data stored, it is returned and nothing changes |
| Storage.Store.AddListing | src/utils/storage.js:192-204 | The stamped listing is returned and put in front of the old listings; its id is appended to the owned ids; it is found by id and owned; the invariant is kept |
| Storage.Store.UpdateListing | src/utils/storage.js:207-216 | Missing id: None and no change. Present id: only the first listing with it is replaced by the merge, and that listing is returned. Owned ids never change; without an `id` field the invariant is kept |
| Storage.Store.DeleteListing | src/utils/storage.js:219-224 | Both sequences lose the id and keep the rest in order; afterwards the id is neither found nor owned; the invariant is kept; in a consistent store, deleting an id no listing carries changes nothing |
| Storage.FindFront | src/utils/storage.js:186-200 | After a listing is put in front, looking up its id finds that listing |
| Storage.RemoveListingDropsId | src/utils/storage.js:219-224 | After deletion no listing carries the id and `getListing` finds nothing |
| Storage.RemoveMissing | src/utils/storage.js:221 | Deleting an id no listing carries leaves the listings unchanged |
| Storage.RemoveIdMissing | src/utils/storage.js:222 | Removing an id that is not owned leaves the owned ids unchanged |
| Storage.DeleteMissingChangesNothing | src/utils/storage.js:219-224 | In a consistent store, deleting an id no listing carries leaves both the listings and the owned ids unchanged |
| Storage.RemoveTwice | src/utils/storage.js:221 | Deleting twice equals deleting once |
| Storage.RemoveIdTwice | src/utils/storage.js:222 | Removing an id twice from the owned ids equals removing it once |
| Storage.OwnedIsSubset | src/utils/storage.js:227-230 | A listing is among "my listings" exactly when it is stored and its id is owned |
| Storage.AddKeepsConsistent | src/utils/storage.js:192-204 | Prepending a listing with a fresh id and owning that id keeps the store invariant |
| Storage.UpdateKeepsConsistent | src/utils/storage.js:207-216 | Replacing a listing by a merge that carries no `id` keeps the store invariant |
| Storage.UpdateCanDuplicateId | src/utils/storage.js:211 | An update carrying `id: "2"` applied to listing "1" of a consistent store leaves two listings with id "2" |
| Storage.DeleteKeepsConsistent | src/utils/storage.js:219-224 | Deleting from both sequences keeps the store invariant |
| ListingQuery.Keep | src/hooks/useListings.js:35 | One `filter` step: each listing kept as often as in its input when it passes the test, and dropped otherwise; the kept listings stay in their input order |
| ListingQuery.SelectAll | src/hooks/useListings.js:33-68 | Each listing appears as often as in the input when it passes every criterion, and not at all otherwise; the result keeps the input order |
| ListingQuery.SelectNothing | src/hooks/useListings.js:31 | With no filter applied yet, the copy is the whole input |
| ListingQuery.KeepAfterSelect | src/hooks/useListings.js:33-68 | One more `filter` step after a selection is the selection with one more criterion |
| ListingQuery.MatchesIff | src/hooks/useListings.js:33-68 | A listing passes exactly when: status equals the requested one ("active" by default); a truthy type matches exactly; a truthy search occurs case-insensitively in title, species or description; a truthy location occurs case-insensitively in the location; price lies within the inclusive bounds |
| ListingQuery.OrderOf | src/hooks/useListings.js:71-78 | "price-asc" and "price-desc" select their price orders; every other value, undefined included, selects newest first |
| ListingQuery.KeyMatchesComparator | src/hooks/useListings.js:71-78 | Ordering by `Key` agrees with each comparator (`a.price - b.price`, `b.price - a.price`, `date(b) - date(a)`): a key no larger means a comparator result no larger than 0, and equal keys mean a tie |
| ListingQuery.Insert | src/hooks/useListings.js:71-78 | Inserting into a sorted sequence keeps it sorted and adds exactly the one listing |
| ListingQuery.Sort | src/hooks/useListings.js:71-78 | The result is sorted by the order's key and is a permutation of the input |
| ListingQuery.SortStable | src/hooks/useListings.js:71-78 | For every key value, the listings with that key appear in the sorted result in their input order |
| ListingQuery.FilteredListings | src/hooks/useListings.js:30-81 | The result is a permutation of the matching listings, sorted by the requested order, with equal keys in input order |
| ListingQuery.SelectMembers | src/hooks/useListings.js:33-68 | A listing is in the selection exactly when it is in the input and matches the filters |
| ListingQuery.OrderMeaning | src/hooks/useListings.js:71-78 | Sorted output has non-decreasing prices for "price-asc", non-increasing prices for "price-desc", and non-increasing dates for any other value |
| ListingQuery.OldestFirstSortsNewestFirst | src/hooks/useListings.js:75-78 | "date-asc" puts the newer of two listings first |
| ListingQuery.NoFiltersListsActive | src/pages/HomePage.jsx:9 | `useListings()` with no filters selects exactly the active listings and orders them newest first |
| ListingQuery.DefaultStatusIsActive | src/hooks/useListings.js:33-38 | Without a status filter a listing that is not active is never selected |
| ListingQuery.SortTwo | src/hooks/useListings.js:71-78 | Sorting two listings swaps them exactly when the first has the larger key |
| ListingQuery.SearchIgnoresCase | src/hooks/useListings.js:46-53 | The search "lorikeet" matches the species "Rainbow Lorikeet" |
| Text.ToLower | src/hooks/useListings.js:47-51 | `toLowerCase` keeps the length and lowers each character on its own |
| Text.LowerChar | src/hooks/useListings.js:47-51 | A capital letter becomes the same letter in lower case; any other character is unchanged |
| Text.CaseRoundTrip | src/hooks/useListings.js:47-51 | Lowering a raised character gives it back unless it was a capital; raising a lowered one gives it back unless it was lower case |
| Text.UpperChar | src/components/ListingCard.jsx:44 | A lower-case letter becomes the same letter in upper case; any other character is unchanged |
| Text.Trim | src/utils/validation.js:18 | `trim` gives the input with only white space dropped at each end, and the result neither starts nor ends with white space |
| Text.LeadingSpacesAreSpaces | src/utils/validation.js:18 | What `trim` drops at the front is all white space |
| Text.TrailingSpacesAreSpaces | src/utils/validation.js:18 | What `trim` drops at the back is all white space |
| Text.RemoveSpaces | src/utils/validation.js:11 | `replace(/\s/g, '')` leaves no white space and keeps every other character |
| Text.RemoveSpacesAppend | src/utils/validation.js:11 | Removing white space commutes with concatenation |
| Text.RemoveSpacesOfBlank | src/utils/validation.js:11 | A string made only of white space becomes empty |
| Text.NatToString | src/components/ListingCard.jsx:19 | A whole number renders as non-empty decimal digits that denote it, without a leading zero; zero renders as "0" |
| Validation.IsValidEmail | src/utils/validation.js:2-5 | A valid address has at least five characters and contains an "@" and a "." |
| Validation.EmailShape | src/utils/validation.js:2-5 | An address is valid exactly when it is word "@" word "." word, each word non-empty, with no white space or "@"; the middle word may hold dots |
| Validation.IsValidPhone | src/utils/validation.js:8-12 | A given valid phone has 9 to 13 characters once white space is removed |
| Validation.SecondAlternativeSubsumed | src/utils/validation.js:10 | Every number of the "02" alternative also matches the first alternative |
| Validation.PhoneFirstAlternativeSuffices | src/utils/validation.js:8-12 | A phone is valid exactly when it is empty or, with white space removed, matches the first alternative |
| Validation.PhoneLength | src/utils/validation.js:10 | A matching number has 9 to 13 characters |
| Validation.PhoneLengthReached | src/utils/validation.js:10 | Both bounds are reached: "012345678" and "0123-456-7890" match |
| Validation.BlankPhoneInvalid | src/utils/validation.js:9-11 | A non-empty phone of only white space is rejected |
| Validation.PhoneSpacesIgnored | src/utils/validation.js:11 | Inserting a space anywhere in a given phone keeps its verdict |
| Validation.FlagListingField | src/utils/validation.js:18-52 | One conditional assignment records the field's message exactly when its check failed and leaves the earlier fields as they were |
| Validation.CheckListingFields | src/utils/validation.js:16-52 | After the nine checks the error map agrees with the failing fields, field by field, each with its message |
| Validation.ValidateListing | src/utils/validation.js:15-58 | The error map holds exactly the failing fields, each with its message; `isValid` holds exactly when no field fails |
| Validation.ListingLengthRules | src/utils/validation.js:18-44 | Title, description, location, contact name and bird species fail exactly when their trimmed length is under 5, 20, 2, 2 and 2 |
| Validation.ListingCategoryRules | src/utils/validation.js:22-36 | A wanted listing never has a price error; only bird listings can have a species error; a missing type is an error |
| Validation.ListingPhoneRule | src/utils/validation.js:50-52 | A phone error arises exactly for a given phone that, with white space removed, is not a New Zealand number |
| Validation.ListingPriceRule | src/utils/validation.js:34-36 | A wanted listing never has a price error; otherwise a price of 0 is accepted, a blank price and a negative price are refused, and any price of at least 0 is accepted |
| Validation.FlagContactField | src/utils/validation.js:64-74 | One conditional assignment records the contact field's message exactly when its check failed |
| Validation.ValidateContactForm | src/utils/validation.js:61-80 | The error map holds exactly the failing contact fields, each with its message; `isValid` holds exactly when none fails |
| Validation.ContactRules | src/utils/validation.js:61-80 | The contact form is accepted exactly when the trimmed name has at least 2 characters, the e-mail is valid and the trimmed message has at least 10 |
| ImageHelper.CheckImageFile | src/utils/imageHelper.js:65-78 | Valid exactly when the type is listed and the size is at most 10 MB; too large exactly when the type is listed and the size exceeds it |
| ImageHelper.TypeCheckedFirst | src/utils/imageHelper.js:69-71 | A file of the wrong type reports the type error whatever its size |
| ImageHelper.SizeBoundInclusive | src/utils/imageHelper.js:67-75 | A JPEG of exactly 10,485,760 bytes passes; one byte more is too large |
| ImageHelper.FirstInvalid | src/utils/imageHelper.js:86-93 | The per-file loop reports only a type or a size error, never the count error |
| ImageHelper.FirstInvalidMeaning | src/utils/imageHelper.js:86-93 | The files pass exactly when each does; otherwise the verdict is that of the earliest failing file |
| ImageHelper.ValidateImages | src/utils/imageHelper.js:81-94 | More than `maxCount` files give the count error; otherwise the verdict is that of the first failing file, or valid |
| ImageHelper.ProcessedFiles | src/utils/imageHelper.js:58-62 | Exactly the first min(n, maxCount) files are processed, in order |
| ImageHelper.AcceptedSelectionProcessedWhole | src/utils/imageHelper.js:58-62 | A selection within the count bound is processed in full |
| ImageHelper.Resized | src/utils/imageHelper.js:26-37 | An oversized landscape image gets width `maxWidth`; an image at least as tall as wide and taller than `maxHeight` gets height `maxHeight`; an image within its bound keeps its size |
| ImageHelper.ResizedDimensions | src/utils/imageHelper.js:23-37 | The reassigned width and height are the result of the dimension rule |
| ImageHelper.ResizedCases | src/utils/imageHelper.js:26-37 | An oversized landscape image gets `maxWidth` and a height scaled by `maxWidth / width`; otherwise an image taller than `maxHeight` gets it and a width scaled alike; any other image keeps its size |
| ImageHelper.ResizedKeepsAspect | src/utils/imageHelper.js:26-37 | The aspect ratio is preserved |
| ImageHelper.ResizedNeverEnlarges | src/utils/imageHelper.js:26-37 | Neither side grows |
| ImageHelper.ResizedFitsSquareBound | src/utils/imageHelper.js:12-37 | With equal bounds, as the 1200 by 1200 defaults are, neither side exceeds the bound |
| ImageHelper.DefaultLimits | src/utils/imageHelper.js:12-59 | With the default arguments at most five files are processed and every resized image fits 1200 by 1200 |
| ImageGallery.NextIndex | src/components/ImageGallery.jsx:24-26 | The next index stays among the photos |
| ImageGallery.PreviousIndex | src/components/ImageGallery.jsx:20-22 | The previous index stays among the photos |
| ImageGallery.NextIsSuccessorModulo | src/components/ImageGallery.jsx:24-26 | Next is one forward modulo the number of photos (the last wraps to the first) |
| ImageGallery.PreviousIsPredecessorModulo | src/components/ImageGallery.jsx:20-22 | Previous is one back modulo the number of photos (the first wraps to the last) |
| ImageGallery.ArrowsAreInverse | src/components/ImageGallery.jsx:20-26 | Next then previous, or previous then next, restores the index |
| ImageGallery.NextTimesWithinRound | src/components/ImageGallery.jsx:24-26 | k presses of next, k at most n, move k places forward, wrapping at most once |
| ImageGallery.FullCycle | src/components/ImageGallery.jsx:24-26 | n presses of next return to the starting photo |
| ImageGallery.Gallery.constructor | src/components/ImageGallery.jsx:10 | The gallery starts at the first photo |
| ImageGallery.Gallery.Shown | src/components/ImageGallery.jsx:12-72 | The placeholder exactly when there are no photos; otherwise the current photo with its 1-based position out of the total |
| ImageGallery.Gallery.HasNavigation | src/components/ImageGallery.jsx:43-76 | With photos, arrows, counter and thumbnails show exactly when "next" moves every photo to a different one (more than one photo) |
| ImageGallery.Gallery.GoToPrevious | src/components/ImageGallery.jsx:20-22 | The index moves to the previous photo, cyclically, and stays valid |
| ImageGallery.Gallery.GoToNext | src/components/ImageGallery.jsx:24-26 | The index moves to the next photo, cyclically, and stays valid |
| ImageGallery.Gallery.GoToImage | src/components/ImageGallery.jsx:28-30 | A thumbnail sets the index to its own, which is valid |
| ListingCard.GetTimeAgo | src/components/ListingCard.jsx:13-28 | The buckets, stated in elapsed milliseconds, are disjoint and exhaustive: under an hour just now; whole hours up to a day; whole days up to a week; whole weeks up to four; then the date |
| ListingCard.Label | src/components/ListingCard.jsx:18-25 | "Just now", or the decimal digits of the hours, days or weeks without leading zeros, followed by "h ago", "d ago" or "w ago" |
| ListingCard.Counted | src/components/ListingCard.jsx:19-25 | A template literal `${n}` plus a unit is the canonical decimal digits of `n` (no leading zero, "0" for zero) followed by that unit |
| ListingCard.FutureIsJustNow | src/components/ListingCard.jsx:16-18 | A listing dated in the future reads "Just now" |
| ListingCard.AgeMonotone | src/components/ListingCard.jsx:13-28 | As time passes the label never moves to a younger bucket |
| ListingCard.CategoryColor | src/components/ListingCard.jsx:31-40 | A known category gets its listed class; anything else gets the grey fallback |
| ListingCard.ColorDistinguishes | src/components/ListingCard.jsx:31-40 | The colour differs from grey exactly for bird, equipment, food and supplies |
| ListingCard.CategoryName | src/components/ListingCard.jsx:43-45 | The length is kept, the first character is upper-cased and the rest are unchanged |
| ListingCard.CategoryNameIdempotent | src/components/ListingCard.jsx:43-45 | Capitalising twice is capitalising once |
| ListingCard.CategoryNames | src/components/ListingCard.jsx:43-45 | The five categories display as Bird, Equipment, Food, Supplies and Wanted |
| ListingsPage.ParamOr | src/pages/ListingsPage.jsx:13-15 | A present, non-empty parameter is used; otherwise the fallback |
| ListingsPage.DecodeFilters | src/pages/ListingsPage.jsx:12-16 | The type is the parameter or null, the search the parameter or "", the sort the parameter or "date-desc" |
| ListingsPage.EncodeParams | src/pages/ListingsPage.jsx:21-27 | `type` and `search` are written exactly when truthy, `sort` exactly when not "date-desc", each with its value, and nothing else |
| ListingsPage.BuildParams | src/pages/ListingsPage.jsx:22-26 | The parameters built by conditional assignments are the encoding |
| ListingsPage.DecodeEncode | src/pages/ListingsPage.jsx:12-27 | Filters whose type is null or non-empty and whose sort is non-empty are read back unchanged from the URL they write |
| ListingsPage.DecodeEncodeUnrepresentable | src/pages/ListingsPage.jsx:12-27 | An empty type reads back as null and an empty sort as "date-desc" |
| ListingsPage.EncodeDecode | src/pages/ListingsPage.jsx:12-27 | Parameters the page could have written are reproduced when read and written back |
| ListingsPage.ClearedIsBare | src/pages/ListingsPage.jsx:41-45 | Cleared filters write no parameters and show no "Clear Filters" button |
| ListingsPage.HasActiveFilters | src/pages/ListingsPage.jsx:45 | `hasActiveFilters` holds exactly when the written URL carries a type or a search |
| ListingsPage.ActiveFiltersInUrl | src/pages/ListingsPage.jsx:45 | The button shows exactly when the URL carries a type or a search; changing the sort order never changes it |
| ListingsPage.QueryFilters | src/pages/ListingsPage.jsx:18 | The hook receives the type, the search and the sort; status, location and price stay undefined |
| ListingsPage.ClearedListsActive | src/hooks/useListings.js:33-78 | With cleared filters the page lists exactly the active listings, newest first |
| ListingsPage.Browser.constructor | src/pages/ListingsPage.jsx:12-16 | Opening the page reads the filters from the URL |
| ListingsPage.Browser.HandleCategoryChange | src/pages/ListingsPage.jsx:29-31 | Only the type changes |
| ListingsPage.Browser.HandleSearch | src/pages/ListingsPage.jsx:33-35 | Only the search changes |
| ListingsPage.Browser.HandleSortChange | src/pages/ListingsPage.jsx:37-39 | Only the sort order changes |
| ListingsPage.Browser.ClearFilters | src/pages/ListingsPage.jsx:41-43 | The filters become null, "" and "date-desc", which write no parameters and count as inactive |

## Left out

- Local storage and JSON: reading, writing and serialising the persisted object (`src/utils/storage.js:5`, 162, 165, 170-177, `clearData`) are modelled by the fields of `Storage.Store`. Writes from other tabs are not modelled.
- The seed is abridged to what the model reasons about: each sample listing keeps its id, type, title, species, price, location, posting instant and status. Its description, images and contact fields are empty.
- The `data.listings || []` fallback of `getListings` is not modelled: the stored object always has a listing sequence here.
- Clocks: `Date.now()`, `new Date()`, `toISOString` and `new Date(string)` become integer milliseconds passed in. An unparseable date (`NaN` in JavaScript) is not modelled.
- Storage.Store.AddListing: requires that no stored listing already has the new id, because the code takes the id from the clock and does not check it.
- ListingCard.Label: has no text for the absolute-date bucket, because the locale formatting of `toLocaleDateString` is not modelled. `OnDate` carries the posting instant instead.
- Browser APIs of the image helper: `FileReader`, `Image`, the canvas, JPEG encoding and the promises around them (`fileToBase64`, the rest of `resizeImage`, the `resizeImage` calls of `processImages`).
- ImageHelper.ResizedDimensions: the dimension rule is stated over reals. Floating-point rounding is not modelled, and neither is the truncation of fractional sizes when they are assigned to `canvas.width` and `canvas.height`.
- Regular expressions: the e-mail and phone patterns are written as predicates over strings. The regex engine itself is not modelled.
- Text handling is ASCII only. `toLowerCase`, `toUpperCase` and `trim` ignore Unicode case mapping and non-ASCII white space.
- `parseFloat` of the price box is not modelled. The price is either blank or a number (`Validation.PriceInput`), as a number input delivers.
- Form fields that are missing from the form object are modelled as empty strings.
- React rendering, effects, routing and loading state are not modelled. The URL parameters are a map, so a repeated parameter name is not modelled.
- ListingModel.Merge: an update key present with the value `undefined` overwrites the field in the JavaScript spread (`src/utils/storage.js:211`). An absent option cannot express that, so such a key is treated like a missing one.
- ListingCard.CategoryColor: keys inherited from JavaScript's object prototype (such as "constructor") are not modelled. Such a lookup is treated like any other unknown category.
- ImageGallery.Gallery.GoToImage: requires an index among the photos, because only the thumbnails call it.
- ImageGallery.Gallery: the photos are fixed for the life of the gallery, so a change of the `images` prop while the index points past the new end is not modelled.

=== FILE: image_gallery.dfy ===
/**
 * The photo viewer of src/components/ImageGallery.jsx: the index of the
 * photo on display, moved cyclically by the previous and next arrows and set
 * directly by the thumbnails. With no photos only a placeholder is shown and
 * there is nothing to navigate.
 */
module ImageGallery {

  /** The photo after `i` among `n`, wrapping from the last to the first. */
  function NextIndex(i: nat, n: nat): (j: nat)
    requires i < n
    ensures j < n
  {
    if i == n - 1 then 0 else i + 1
  }

  /** The photo before `i` among `n`, wrapping from the first to the last. */
  function PreviousIndex(i: nat, n: nat): (j: nat)
    requires i < n
    ensures j < n
  {
    if i == 0 then n - 1 else i - 1
  }

  /** The index reached from `i` after `k` presses of the next arrow. */
  function NextTimes(i: nat, n: nat, k: nat): (j: nat)
    requires i < n
    ensures j < n
  {
    if k == 0 then i else NextIndex(NextTimes(i, n, k - 1), n)
  }

  /** Next moves one place forward modulo the number of photos. */
  lemma NextIsSuccessorModulo(i: nat, n: nat)
    requires i < n
    ensures NextIndex(i, n) == (i + 1) % n
  {
  }

  /** Previous moves one place back modulo the number of photos. */
  lemma PreviousIsPredecessorModulo(i: nat, n: nat)
    requires i < n
    ensures PreviousIndex(i, n) == (i + n - 1) % n
  {
  }

  /** Each arrow undoes the other. */
  lemma ArrowsAreInverse(i: nat, n: nat)
    requires i < n
    ensures PreviousIndex(NextIndex(i, n), n) == i
    ensures NextIndex(PreviousIndex(i, n), n) == i
  {
  }

  /**
   * Within one round, `k` presses of next move `k` places forward, wrapping
   * past the last photo at most once.
   */
  lemma {:induction false} NextTimesWithinRound(i: nat, n: nat, k: nat)
    requires i < n && k <= n
    ensures NextTimes(i, n, k) == if i + k < n then i + k else i + k - n
  {
    if k > 0 {
      NextTimesWithinRound(i, n, k - 1);
    }
  }

  /** As many presses of next as there are photos bring the starting photo back. */
  lemma FullCycle(i: nat, n: nat)
    requires i < n
    ensures NextTimes(i, n, n) == i
  {
    NextTimesWithinRound(i, n, n);
  }

  /** What the main area shows. */
  datatype View = Placeholder | Photo(url: string, position: nat, total: nat)

  class Gallery {
    const images: seq<string>
    var currentIndex: nat

    /** The index names a photo whenever there is one, and stays 0 when there is none. */
    ghost predicate Valid()
      reads this
    {
      if images == [] then currentIndex == 0 else currentIndex < |images|
    }

    /** A new gallery starts at the first photo. */
    constructor(images: seq<string>)
      ensures this.images == images && currentIndex == 0
      ensures Valid()
    {
      this.images := images;
      currentIndex := 0;
    }

    /**
     * The placeholder when there are no photos; otherwise the current photo
     * with its 1-based position out of the total for the counter.
     */
    function Shown(): (v: View)
      reads this
      requires Valid()
      ensures v.Placeholder? <==> images == []
      ensures v.Photo? ==> v.url == images[currentIndex] && 1 <= v.position <= v.total == |images|
    {
      if images == [] then Placeholder else Photo(images[currentIndex], currentIndex + 1, |images|)
    }

    /** Arrows, counter and thumbnails are shown only for more than one photo. */
    predicate HasNavigation()
      reads this
      ensures images != [] ==> (HasNavigation() <==> forall i | 0 <= i < |images| :: NextIndex(i, |images|) != i)
    {
      assert |images| == 1 ==> NextIndex(0, |images|) == 0;
      |images| > 1
    }

    /** `goToPrevious`: exists only when there is a photo. */
    method GoToPrevious()
      requires Valid() && images != []
      modifies this
      ensures Valid()
      ensures currentIndex == PreviousIndex(old(currentIndex), |images|)
    {
      currentIndex := if currentIndex == 0 then |images| - 1 else currentIndex - 1;
    }

    /** `goToNext`: exists only when there is a photo. */
    method GoToNext()
      requires Valid() && images != []
      modifies this
      ensures Valid()
      ensures currentIndex == NextIndex(old(currentIndex), |images|)
    {
      currentIndex := if currentIndex == |images| - 1 then 0 else currentIndex + 1;
    }

    /** `goToImage`: the thumbnails pass only the indices of the photos. */
    method GoToImage(index: nat)
      requires Valid() && index < |images|
      modifies this
      ensures Valid()
      ensures currentIndex == index
    {
      currentIndex := index;
    }
  }
}

=== FILE: image_helper.dfy ===
/**
 * The checks and the size rule of src/utils/imageHelper.js: the per-file
 * type and size check, the check of a whole selection, the truncation of a
 * selection to the first `maxCount` files, and the dimension rule that
 * `resizeImage` applies before drawing onto a canvas.
 *
 * Reading a file, decoding it and re-encoding it as JPEG are not modelled:
 * a file is its MIME type, its size in bytes and the pixel size of the
 * decoded image.
 */
module ImageHelper {
  import opened Text

  /** A selected file: MIME type, size in bytes, and width and height in pixels once decoded. */
  datatype ImageFile = ImageFile(mimeType: string, size: nat, width: nat, height: nat)

  /** The accepted MIME types. */
  const ValidTypes: seq<string> := ["image/jpeg", "image/jpg", "image/png", "image/webp"]

  /** 10 MB: the largest accepted file, in bytes. */
  const MaxSize: nat := 10 * 1024 * 1024

  /** The default of the `maxCount` parameters. */
  const DefaultMaxCount: nat := 5

  /** The default bounds of `resizeImage`. */
  const DefaultMaxWidth: nat := 1200
  const DefaultMaxHeight: nat := 1200

  /** Why a file or a selection was refused. */
  datatype ImageError = WrongType | TooLarge | TooMany(maxCount: nat)

  /** The `{ valid, error }` object the checks return. */
  datatype Verdict = Valid | Invalid(error: ImageError)

  /** The `error` text of each refusal. */
  function Message(e: ImageError): (m: string)
    ensures |m| > 0
  {
    match e
    case WrongType => "Only JPG, PNG, and WebP images are allowed"
    case TooLarge => "Image must be less than 10MB"
    case TooMany(n) => "Maximum " + NatToString(n) + " images allowed"
  }

  // ---------------------------------------------------------------------------
  // One file

  /** `isValidImageFile`: the type is checked before the size. */
  function CheckImageFile(f: ImageFile): (r: Verdict)
    ensures r.Valid? <==> f.mimeType in ValidTypes && f.size <= MaxSize
    ensures r.Invalid? ==> !r.error.TooMany?
    ensures r == Invalid(TooLarge) <==> f.mimeType in ValidTypes && f.size > MaxSize
  {
    if f.mimeType !in ValidTypes then Invalid(WrongType)
    else if f.size > MaxSize then Invalid(TooLarge)
    else Valid
  }

  /** A file of the wrong type is refused for its type whatever its size. */
  lemma TypeCheckedFirst(f: ImageFile)
    requires f.mimeType !in ValidTypes
    ensures CheckImageFile(f) == Invalid(WrongType)
  {
  }

  /** The bound is inclusive: a JPEG of exactly 10,485,760 bytes passes, one byte more does not. */
  lemma SizeBoundInclusive(w: nat, h: nat)
    ensures CheckImageFile(ImageFile("image/jpeg", 10485760, w, h)) == Valid
    ensures CheckImageFile(ImageFile("image/jpeg", 10485761, w, h)) == Invalid(TooLarge)
  {
  }

  // ---------------------------------------------------------------------------
  // A selection

  /** The verdict of the first refused file of `fs`, or Valid when every file passes. */
  function FirstInvalid(fs: seq<ImageFile>): (r: Verdict)
    ensures r.Invalid? ==> r.error == WrongType || r.error == TooLarge
  {
    if fs == [] then Valid
    else if CheckImageFile(fs[0]).Invalid? then CheckImageFile(fs[0])
    else FirstInvalid(fs[1..])
  }

  /**
   * A selection passes exactly when every file does, and otherwise reports
   * the error of the earliest refused file.
   */
  lemma {:induction false} FirstInvalidMeaning(fs: seq<ImageFile>)
    ensures FirstInvalid(fs).Valid? <==> forall i | 0 <= i < |fs| :: CheckImageFile(fs[i]).Valid?
    ensures FirstInvalid(fs).Invalid? ==>
              exists i | 0 <= i < |fs| ::
                && FirstInvalid(fs) == CheckImageFile(fs[i])
                && forall j | 0 <= j < i :: CheckImageFile(fs[j]).Valid?
  {
    if fs != [] && CheckImageFile(fs[0]).Valid? {
      var rest := fs[1..];
      FirstInvalidMeaning(rest);
      assert forall i | 0 < i < |fs| :: fs[i] == rest[i - 1];
      if FirstInvalid(rest).Invalid? {
        var i :| 0 <= i < |rest| && FirstInvalid(rest) == CheckImageFile(rest[i])
                 && forall j | 0 <= j < i :: CheckImageFile(rest[j]).Valid?;
        assert FirstInvalid(fs) == CheckImageFile(fs[i + 1]);
      }
    } else if fs != [] {
      assert FirstInvalid(fs) == CheckImageFile(fs[0]);
    }
  }

  /**
   * `validateImages`: more than `maxCount` files are refused as a whole before
   * any file is looked at; otherwise the files are checked in order and the
   * first refusal is returned.
   */
  method ValidateImages(files: seq<ImageFile>, maxCount: nat) returns (r: Verdict)
    ensures |files| > maxCount ==> r == Invalid(TooMany(maxCount))
    ensures |files| <= maxCount ==> r == FirstInvalid(files)
  {
    if |files| > maxCount {
      return Invalid(TooMany(maxCount));
    }
    var i := 0;
    while i < |files|
      invariant 0 <= i <= |files|
      invariant FirstInvalid(files[i..]) == FirstInvalid(files)
    {
      var v := CheckImageFile(files[i]);
      if !v.Valid? {
        return v;
      }
      assert files[i..][1..] == files[i + 1..];
      i := i + 1;
    }
    return Valid;
  }

  /** `processImages`: only the first `maxCount` files of the selection are resized, in order. */
  function ProcessedFiles(files: seq<ImageFile>, maxCount: nat): (r: seq<ImageFile>)
    ensures |r| == if |files| <= maxCount then |files| else maxCount
    ensures forall i | 0 <= i < |r| :: r[i] == files[i]
  {
    if |files| <= maxCount then files else files[..maxCount]
  }

  /** A selection that passed `validateImages` is resized in full. */
  lemma AcceptedSelectionProcessedWhole(files: seq<ImageFile>, maxCount: nat)
    requires |files| <= maxCount
    ensures ProcessedFiles(files, maxCount) == files
  {
  }

  // ---------------------------------------------------------------------------
  // The dimension rule of resizeImage

  /** A canvas size in pixels, possibly fractional. */
  datatype Size = Size(width: real, height: real)

  /**
   * The canvas size `resizeImage` computes for an image of `w` by `h` pixels:
   * a landscape image wider than `maxWidth` is narrowed to `maxWidth`, any
   * other image taller than `maxHeight` is lowered to `maxHeight`, and the
   * other side is scaled by the same ratio; anything else keeps its size.
   */
  function Resized(w: nat, h: nat, maxWidth: nat, maxHeight: nat): (r: Size)
    ensures w > h && w > maxWidth ==> r.width == maxWidth as real
    ensures w <= h && h > maxHeight ==> r.height == maxHeight as real
    ensures (w > h ==> w <= maxWidth) && (w <= h ==> h <= maxHeight) ==> r == Size(w as real, h as real)
  {
    if w > h then
      if w > maxWidth then Size(maxWidth as real, (h as real * maxWidth as real) / w as real)
      else Size(w as real, h as real)
    else
      if h > maxHeight then Size((w as real * maxHeight as real) / h as real, maxHeight as real)
      else Size(w as real, h as real)
  }

  /** The local `width` and `height` of `resizeImage`, reassigned by the dimension rule. */
  method ResizedDimensions(w: nat, h: nat, maxWidth: nat, maxHeight: nat) returns (width: real, height: real)
    ensures Size(width, height) == Resized(w, h, maxWidth, maxHeight)
  {
    width, height := w as real, h as real;
    if width > height {
      if width > maxWidth as real {
        height := (height * maxWidth as real) / width;
        width := maxWidth as real;
      }
    } else {
      if height > maxHeight as real {
        width := (width * maxHeight as real) / height;
        height := maxHeight as real;
      }
    }
  }

  /**
   * Which side is bounded: the long side of an oversized image becomes the
   * bound and the other side is its length times bound over long side; an
   * image within its bound keeps its size.
   */
  lemma ResizedCases(w: nat, h: nat, maxWidth: nat, maxHeight: nat)
    ensures w > h && w > maxWidth ==>
              Resized(w, h, maxWidth, maxHeight) == Size(maxWidth as real, (h * maxWidth) as real / w as real)
    ensures w <= h && h > maxHeight ==>
              Resized(w, h, maxWidth, maxHeight) == Size((w * maxHeight) as real / h as real, maxHeight as real)
    ensures (w > h ==> w <= maxWidth) && (w <= h ==> h <= maxHeight) ==>
              Resized(w, h, maxWidth, maxHeight) == Size(w as real, h as real)
  {
    if w > h && w > maxWidth {
      ScaledSide(h, maxWidth, w);
    } else if w <= h && h > maxHeight {
      ScaledSide(w, maxHeight, h);
    }
  }

  /** The aspect ratio is kept: width over height is the same before and after. */
  lemma ResizedKeepsAspect(w: nat, h: nat, maxWidth: nat, maxHeight: nat)
    ensures Resized(w, h, maxWidth, maxHeight).width * h as real == Resized(w, h, maxWidth, maxHeight).height * w as real
  {
    var r := Resized(w, h, maxWidth, maxHeight);
    if w > h && w > maxWidth {
      ScaledSide(h, maxWidth, w);
      assert r == Size(maxWidth as real, (h as real * maxWidth as real) / w as real);
    } else if w <= h && h > maxHeight {
      ScaledSide(w, maxHeight, h);
      assert r == Size((w as real * maxHeight as real) / h as real, maxHeight as real);
    } else {
      assert r == Size(w as real, h as real);
    }
  }

  /** An image is only ever shrunk. */
  lemma ResizedNeverEnlarges(w: nat, h: nat, maxWidth: nat, maxHeight: nat)
    ensures Resized(w, h, maxWidth, maxHeight).width <= w as real
    ensures Resized(w, h, maxWidth, maxHeight).height <= h as real
  {
    if w > h && w > maxWidth {
      ScaledSide(h, maxWidth, w);
    } else if w <= h && h > maxHeight {
      ScaledSide(w, maxHeight, h);
    }
  }

  /** With equal bounds, as the defaults of 1200 by 1200 are, the result fits the bound on both sides. */
  lemma ResizedFitsSquareBound(w: nat, h: nat, bound: nat)
    ensures Resized(w, h, bound, bound).width <= bound as real
    ensures Resized(w, h, bound, bound).height <= bound as real
  {
    if w > h && w > bound {
      ScaledSide(h, bound, w);
    } else if w <= h && h > bound {
      ScaledSide(w, bound, h);
    }
  }

  /**
   * With the default arguments at most five files are processed and every
   * resized image fits 1200 by 1200.
   */
  lemma DefaultLimits(files: seq<ImageFile>, w: nat, h: nat)
    ensures |ProcessedFiles(files, DefaultMaxCount)| <= 5
    ensures Resized(w, h, DefaultMaxWidth, DefaultMaxHeight).width <= 1200.0
    ensures Resized(w, h, DefaultMaxWidth, DefaultMaxHeight).height <= 1200.0
  {
    ResizedFitsSquareBound(w, h, 1200);
  }

  /**
   * Scaling the shorter side `a` of an `a`-by-`b` image by `bound / b`, for a
   * bound below `b`: the result keeps the ratio `a : b`, equals the product
   * formed the other way round, and exceeds neither `a` nor `bound`.
   */
  lemma ScaledSide(a: nat, bound: nat, b: nat)
    requires a <= b && bound < b
    ensures bound as real * a as real == ((a as real * bound as real) / b as real) * b as real
    ensures (a as real * bound as real) / b as real == (a * bound) as real / b as real
    ensures (a as real * bound as real) / b as real <= a as real
    ensures (a as real * bound as real) / b as real <= bound as real
  {
    var s := (a * bound) as real / b as real;
    assert s * b as real == (a * bound) as real;
    assert (a * bound) as real == a as real * bound as real;
    assert a * bound <= a * b by {
      MulMonotone(a, bound, b);
    }
    assert s <= a as real by {
      assert s * b as real <= a as real * b as real;
    }
    MulMonotone(bound, a, b);
    assert s * b as real <= bound as real * b as real;
  }

  lemma MulMonotone(a: nat, x: nat, y: nat)
    requires x <= y
    ensures a * x <= a * y
  {
  }
}

=== FILE: listing.dfy ===
/**
 * The listing record of the classifieds store and the object spread
 * `{ ...current, ...updates }` that `updateListing` applies to it
 * (src/utils/storage.js).
 */
module ListingModel {
  import opened Wrappers

  /**
   * One classified listing. The JavaScript property `type` is called `category`
   * here (`type` is a Dafny keyword). `datePosted` is the instant of the ISO
   * timestamp, in milliseconds since the Unix epoch; `price` is a JavaScript
   * number, modelled as a real.
   */
  datatype Listing = Listing(
    id: string,
    category: string,
    title: string,
    species: string,
    description: string,
    price: real,
    location: string,
    images: seq<string>,
    contactName: string,
    contactEmail: string,
    contactPhone: string,
    datePosted: int,
    status: string)

  /** The partial record passed to `updateListing`: each present field replaces the stored one. */
  datatype ListingPatch = ListingPatch(
    id: Option<string>,
    category: Option<string>,
    title: Option<string>,
    species: Option<string>,
    description: Option<string>,
    price: Option<real>,
    location: Option<string>,
    images: Option<seq<string>>,
    contactName: Option<string>,
    contactEmail: Option<string>,
    contactPhone: Option<string>,
    datePosted: Option<int>,
    status: Option<string>)

  /** `a` is `b` with some elements left out and the rest in their order. */
  ghost predicate IsSubsequence<T>(a: seq<T>, b: seq<T>)
    decreases |b|
  {
    a == [] || (b != [] && ((a[0] == b[0] && IsSubsequence(a[1..], b[1..])) || IsSubsequence(a, b[1..])))
  }

  /** The empty object `{}` as a patch. */
  function NoChanges(): ListingPatch {
    ListingPatch(None, None, None, None, None, None, None, None, None, None, None, None, None)
  }

  /**
   * `{ ...current, ...updates }`: a field present in `updates` wins, so an update
   * may replace `id` and `datePosted` as well.
   */
  function Merge(current: Listing, updates: ListingPatch): Listing {
    Listing(
      updates.id.GetOr(current.id),
      updates.category.GetOr(current.category),
      updates.title.GetOr(current.title),
      updates.species.GetOr(current.species),
      updates.description.GetOr(current.description),
      updates.price.GetOr(current.price),
      updates.location.GetOr(current.location),
      updates.images.GetOr(current.images),
      updates.contactName.GetOr(current.contactName),
      updates.contactEmail.GetOr(current.contactEmail),
      updates.contactPhone.GetOr(current.contactPhone),
      updates.datePosted.GetOr(current.datePosted),
      updates.status.GetOr(current.status))
  }

  /** The patch that spreads `first` and then `second`: the later one wins field by field. */
  function Then(first: ListingPatch, second: ListingPatch): ListingPatch {
    ListingPatch(
      if second.id.Some? then second.id else first.id,
      if second.category.Some? then second.category else first.category,
      if second.title.Some? then second.title else first.title,
      if second.species.Some? then second.species else first.species,
      if second.description.Some? then second.description else first.description,
      if second.price.Some? then second.price else first.price,
      if second.location.Some? then second.location else first.location,
      if second.images.Some? then second.images else first.images,
      if second.contactName.Some? then second.contactName else first.contactName,
      if second.contactEmail.Some? then second.contactEmail else first.contactEmail,
      if second.contactPhone.Some? then second.contactPhone else first.contactPhone,
      if second.datePosted.Some? then second.datePosted else first.datePosted,
      if second.status.Some? then second.status else first.status)
  }

  /** Spreading an empty object changes nothing. */
  lemma MergeNoChanges(l: Listing)
    ensures Merge(l, NoChanges()) == l
  {
  }

  /** Applying the same update twice is the same as applying it once. */
  lemma MergeIdempotent(l: Listing, p: ListingPatch)
    ensures Merge(Merge(l, p), p) == Merge(l, p)
  {
  }

  /** Two successive updates are one update with the later fields winning. */
  lemma MergeThen(l: Listing, p: ListingPatch, q: ListingPatch)
    ensures Merge(Merge(l, p), q) == Merge(l, Then(p, q))
  {
  }

  /** The update wins on every field it carries, `id` and `datePosted` included; the others are kept. */
  lemma MergeUpdatesWin(l: Listing, p: ListingPatch)
    ensures p.id.Some? ==> Merge(l, p).id == p.id.value
    ensures p.datePosted.Some? ==> Merge(l, p).datePosted == p.datePosted.value
    ensures p.id.None? ==> Merge(l, p).id == l.id
    ensures p.datePosted.None? ==> Merge(l, p).datePosted == l.datePosted
  {
  }
}

=== FILE: listing_card.dfy ===
/**
 * The display helpers of src/components/ListingCard.jsx: the relative age
 * of a listing, and the colour and display name of its category badge.
 *
 * Times are integer milliseconds since the epoch; the current time is a
 * parameter.
 */
module ListingCard {
  import opened Text

  const HourMs: int := 1000 * 60 * 60
  const DayMs: int := 24 * HourMs
  const WeekMs: int := 7 * DayMs

  /** The label `getTimeAgo` produces; OnDate stands for the locale date of the listing. */
  datatype TimeAgo = JustNow | HoursAgo(hours: nat) | DaysAgo(days: nat) | WeeksAgo(weeks: nat) | OnDate(posted: int)

  /**
   * `getTimeAgo`: whole hours elapsed, rounded down, then whole days and whole
   * weeks by further division, as `Math.floor` does (Dafny's division rounds
   * down for a positive divisor). Each bucket is stated in elapsed
   * milliseconds.
   */
  function GetTimeAgo(now: int, posted: int): (r: TimeAgo)
    ensures r == JustNow <==> now - posted < HourMs
    ensures r.HoursAgo? <==> HourMs <= now - posted < DayMs
    ensures r.HoursAgo? ==> 1 <= r.hours < 24 && r.hours * HourMs <= now - posted < (r.hours + 1) * HourMs
    ensures r.DaysAgo? <==> DayMs <= now - posted < WeekMs
    ensures r.DaysAgo? ==> 1 <= r.days < 7 && r.days * DayMs <= now - posted < (r.days + 1) * DayMs
    ensures r.WeeksAgo? <==> WeekMs <= now - posted < 4 * WeekMs
    ensures r.WeeksAgo? ==> 1 <= r.weeks < 4 && r.weeks * WeekMs <= now - posted < (r.weeks + 1) * WeekMs
    ensures r.OnDate? <==> now - posted >= 4 * WeekMs
    ensures r.OnDate? ==> r.posted == posted
  {
    var diffInHours := (now - posted) / HourMs;
    if diffInHours < 1 then JustNow
    else if diffInHours < 24 then HoursAgo(diffInHours)
    else
      var diffInDays := diffInHours / 24;
      if diffInDays < 7 then DaysAgo(diffInDays)
      else
        var diffInWeeks := diffInDays / 7;
        if diffInWeeks < 4 then WeeksAgo(diffInWeeks) else OnDate(posted)
  }

  /** The text shown for a label; the locale date format is not modelled, so OnDate has none here. */
  function Label(t: TimeAgo): (s: string)
    requires !t.OnDate?
    ensures t.JustNow? ==> s == "Just now"
    ensures t.HoursAgo? ==> CountThen(s, t.hours, "h ago")
    ensures t.DaysAgo? ==> CountThen(s, t.days, "d ago")
    ensures t.WeeksAgo? ==> CountThen(s, t.weeks, "w ago")
  {
    match t
    case JustNow => "Just now"
    case HoursAgo(h) => Counted(h, "h ago")
    case DaysAgo(d) => Counted(d, "d ago")
    case WeeksAgo(w) => Counted(w, "w ago")
  }

  /** `s` is the decimal digits of `n`, without leading zeros, followed by `unit`. */
  predicate CountThen(s: string, n: nat, unit: string)
  {
    && |s| > |unit|
    && s[|s| - |unit|..] == unit
    && AllDigits(s[..|s| - |unit|])
    && DecimalValue(s[..|s| - |unit|]) == n
    && (n > 0 ==> s[0] != '0')
    && (n == 0 ==> s[..|s| - |unit|] == "0")
  }

  /** The template literal `${n}` followed by `unit`. */
  function Counted(n: nat, unit: string): (s: string)
    ensures CountThen(s, n, unit)
  {
    var digits := NatToString(n);
    assert (digits + unit)[..|digits|] == digits;
    assert (digits + unit)[|digits|..] == unit;
    digits + unit
  }

  /** A listing dated in the future reads as just posted. */
  lemma FutureIsJustNow(now: int, posted: int)
    requires posted > now
    ensures GetTimeAgo(now, posted) == JustNow
  {
  }

  /** The label never moves to a younger bucket as time passes. */
  lemma AgeMonotone(now: int, later: int, posted: int)
    requires now <= later
    ensures Rank(GetTimeAgo(now, posted)) <= Rank(GetTimeAgo(later, posted))
  {
  }

  /** The order of the buckets, youngest first. */
  function Rank(t: TimeAgo): nat {
    match t
    case JustNow => 0
    case HoursAgo(_) => 1
    case DaysAgo(_) => 2
    case WeeksAgo(_) => 3
    case OnDate(_) => 4
  }

  // ---------------------------------------------------------------------------
  // Category badge

  const FallbackColor: string := "bg-gray-500 text-white"

  /** The badge classes of the five categories. */
  const CategoryColors: map<string, string> := map[
    "bird" := "bg-primary text-white",
    "equipment" := "bg-secondary text-white",
    "food" := "bg-purple-500 text-white",
    "supplies" := "bg-pink-500 text-white",
    "wanted" := FallbackColor]

  /** `getCategoryColor`: the listed class for a known category, the grey fallback for any other. */
  function CategoryColor(category: string): (c: string)
    ensures category in CategoryColors ==> c == CategoryColors[category]
    ensures category !in CategoryColors ==> c == FallbackColor
  {
    if category in CategoryColors then CategoryColors[category] else FallbackColor
  }

  /** Only birds, equipment, food and supplies get a colour of their own; wanted looks like an unknown category. */
  lemma ColorDistinguishes(category: string)
    ensures CategoryColor(category) != FallbackColor <==> category in ["bird", "equipment", "food", "supplies"]
  {
    if category in ["bird", "equipment", "food", "supplies"] {
      assert category == "bird" || category == "equipment" || category == "food" || category == "supplies";
    }
  }

  /** `getCategoryName`: the first character upper-cased, the rest as it is. */
  function CategoryName(category: string): (name: string)
    ensures |name| == |category|
    ensures category != [] ==> name[0] == UpperChar(category[0]) && name[1..] == category[1..]
  {
    if category == [] then [] else [UpperChar(category[0])] + category[1..]
  }

  /** Applying the display name twice changes nothing more. */
  lemma CategoryNameIdempotent(category: string)
    ensures CategoryName(CategoryName(category)) == CategoryName(category)
  {
  }

  /** The five categories display as Bird, Equipment, Food, Supplies and Wanted. */
  lemma CategoryNames()
    ensures CategoryName("bird") == "Bird"
    ensures CategoryName("equipment") == "Equipment"
    ensures CategoryName("food") == "Food"
    ensures CategoryName("supplies") == "Supplies"
    ensures CategoryName("wanted") == "Wanted"
  {
  }
}

=== FILE: listings_page.dfy ===
/**
 * The browse page of src/pages/ListingsPage.jsx: its filter state, read from
 * the URL query parameters when the page opens, written back to them after
 * every change, changed by the category, search and sort controls, and
 * cleared by the "Clear Filters" button.
 *
 * The query parameters are a map from name to value; the router that holds
 * them and the rendering are not modelled.
 */
module ListingsPage {
  import opened Wrappers
  import opened ListingModel
  import ListingQuery

  /** The page's `filters` state; `category` is the JavaScript property `type`, None is `null`. */
  datatype BrowseFilters = BrowseFilters(category: Option<string>, search: string, sortBy: string)

  /** The query parameters of the page URL. */
  type Params = map<string, string>

  const DefaultSort: string := "date-desc"

  /** `searchParams.get(name) || fallback`: the value when present and not empty, else the fallback. */
  function ParamOr(p: Params, name: string, fallback: string): (v: string)
    ensures name in p && p[name] != "" ==> v == p[name]
    ensures !(name in p && p[name] != "") ==> v == fallback
  {
    if name in p && p[name] != "" then p[name] else fallback
  }

  /** The initial filters: `type` or null, `search` or "", `sort` or "date-desc". */
  function DecodeFilters(p: Params): (f: BrowseFilters)
    ensures f.category == (if "type" in p && p["type"] != "" then Some(p["type"]) else None)
    ensures f.search == ParamOr(p, "search", "")
    ensures f.sortBy == ParamOr(p, "sort", DefaultSort)
  {
    BrowseFilters(
      if "type" in p && p["type"] != "" then Some(p["type"]) else None,
      ParamOr(p, "search", ""),
      ParamOr(p, "sort", DefaultSort))
  }

  /**
   * The parameters written back: `type` and `search` only when truthy, and
   * `sort` only when it is not the default order.
   */
  function EncodeParams(f: BrowseFilters): (p: Params)
    ensures "type" in p <==> ListingQuery.Truthy(f.category)
    ensures "type" in p ==> p["type"] == f.category.value
    ensures "search" in p <==> f.search != ""
    ensures "search" in p ==> p["search"] == f.search
    ensures "sort" in p <==> f.sortBy != DefaultSort
    ensures "sort" in p ==> p["sort"] == f.sortBy
    ensures p.Keys <= {"type", "search", "sort"}
  {
    var p0: Params := map[];
    var p1 := if ListingQuery.Truthy(f.category) then p0["type" := f.category.value] else p0;
    var p2 := if f.search != "" then p1["search" := f.search] else p1;
    if f.sortBy != DefaultSort then p2["sort" := f.sortBy] else p2
  }

  /** The effect that builds the parameters object one conditional assignment at a time. */
  method BuildParams(f: BrowseFilters) returns (params: Params)
    ensures params == EncodeParams(f)
  {
    params := map[];
    if ListingQuery.Truthy(f.category) {
      params := params["type" := f.category.value];
    }
    if f.search != "" {
      params := params["search" := f.search];
    }
    if f.sortBy != DefaultSort {
      params := params["sort" := f.sortBy];
    }
  }

  /** Filters that survive the URL: `type` is null or not empty, and the sort order is named. */
  predicate Representable(f: BrowseFilters) {
    f.category != Some("") && f.sortBy != ""
  }

  /** Writing representable filters to the URL and reading them back gives the same filters. */
  lemma DecodeEncode(f: BrowseFilters)
    requires Representable(f)
    ensures DecodeFilters(EncodeParams(f)) == f
  {
    var p := EncodeParams(f);
    if f.sortBy == DefaultSort {
      assert "sort" !in p;
    }
  }

  /** Filters that cannot survive the URL read back as null `type` or the default order. */
  lemma DecodeEncodeUnrepresentable(f: BrowseFilters)
    ensures f.category == Some("") ==> DecodeFilters(EncodeParams(f)).category == None
    ensures f.sortBy == "" ==> DecodeFilters(EncodeParams(f)).sortBy == DefaultSort
  {
  }

  /**
   * Parameters the page could have written (only the three names, no empty
   * value, no explicit default order) are reproduced when read and written
   * back.
   */
  lemma EncodeDecode(p: Params)
    requires p.Keys <= {"type", "search", "sort"}
    requires forall k | k in p :: p[k] != ""
    requires "sort" in p ==> p["sort"] != DefaultSort
    ensures EncodeParams(DecodeFilters(p)) == p
  {
    var q := EncodeParams(DecodeFilters(p));
    assert q.Keys == p.Keys;
  }

  /** The filters after "Clear Filters". */
  function Cleared(): BrowseFilters {
    BrowseFilters(None, "", DefaultSort)
  }

  /** `hasActiveFilters`: a category or a search term is set; the sort order never counts. */
  predicate HasActiveFilters(f: BrowseFilters)
    ensures HasActiveFilters(f) <==> "type" in EncodeParams(f) || "search" in EncodeParams(f)
  {
    ListingQuery.Truthy(f.category) || f.search != ""
  }

  /** Cleared filters leave the URL without parameters and show no "Clear Filters" button. */
  lemma ClearedIsBare()
    ensures EncodeParams(Cleared()) == map[]
    ensures !HasActiveFilters(Cleared())
  {
  }

  /** The button shows exactly when the URL carries a category or a search term. */
  lemma ActiveFiltersInUrl(f: BrowseFilters)
    ensures HasActiveFilters(f) <==> "type" in EncodeParams(f) || "search" in EncodeParams(f)
    ensures forall s :: HasActiveFilters(f.(sortBy := s)) == HasActiveFilters(f)
  {
  }

  /** The filters handed to `useListings`: status, location and price are left undefined. */
  function QueryFilters(f: BrowseFilters): (q: ListingQuery.Filters)
    ensures q.status.None? && q.location.None? && q.minPrice.None? && q.maxPrice.None?
    ensures q.category == f.category && q.search == Some(f.search) && q.sortBy == Some(f.sortBy)
  {
    ListingQuery.Filters(None, f.category, Some(f.search), None, None, None, Some(f.sortBy))
  }

  /** With cleared filters the page lists exactly the active listings, newest first. */
  lemma ClearedListsActive(l: Listing)
    ensures ListingQuery.Matches(QueryFilters(Cleared()), l) <==> l.status == "active"
    ensures ListingQuery.OrderOf(QueryFilters(Cleared()).sortBy) == ListingQuery.NewestFirst
  {
    ListingQuery.MatchesIff(QueryFilters(Cleared()), l);
  }

  /** The page state: the current filters. */
  class Browser {
    var filters: BrowseFilters

    /** Opening the page reads the filters from the URL. */
    constructor(p: Params)
      ensures filters == DecodeFilters(p)
    {
      filters := DecodeFilters(p);
    }

    /** The parameters the page currently writes to the URL. */
    function Url(): Params
      reads this
    {
      EncodeParams(filters)
    }

    /** `handleCategoryChange`: only the category changes. */
    method HandleCategoryChange(category: Option<string>)
      modifies this
      ensures filters == old(filters).(category := category)
    {
      filters := filters.(category := category);
    }

    /** `handleSearch`: only the search term changes. */
    method HandleSearch(searchTerm: string)
      modifies this
      ensures filters == old(filters).(search := searchTerm)
    {
      filters := filters.(search := searchTerm);
    }

    /** `handleSortChange`: only the sort order changes. */
    method HandleSortChange(value: string)
      modifies this
      ensures filters == old(filters).(sortBy := value)
    {
      filters := filters.(sortBy := value);
    }

    /** `clearFilters`: back to no category, no search and the default order. */
    method ClearFilters()
      modifies this
      ensures filters == Cleared()
      ensures Url() == map[] && !HasActiveFilters(filters)
    {
      filters := Cleared();
      ClearedIsBare();
    }
  }
}

=== FILE: query.dfy ===
/**
 * The browse query of src/hooks/useListings.js: a chain of optional filters
 * over a copy of the listings, then a stable sort by price or by date.
 */
module ListingQuery {
  import opened Wrappers
  import opened Text
  import opened ListingModel

  /**
   * The `filters` object handed to `useListings`. None stands for a property
   * that is `undefined`; `category` is the JavaScript property `type`.
   */
  datatype Filters = Filters(
    status: Option<string>,
    category: Option<string>,
    search: Option<string>,
    location: Option<string>,
    minPrice: Option<real>,
    maxPrice: Option<real>,
    sortBy: Option<string>)

  /** No filter at all: `useListings()` as the home page calls it. */
  function NoFilters(): Filters {
    Filters(None, None, None, None, None, None, None)
  }

  /** JavaScript truthiness of an optional string: present and not empty. */
  predicate Truthy(o: Option<string>) {
    o.Some? && o.value != ""
  }

  // ---------------------------------------------------------------------------
  // Filtering

  /** One `result = result.filter(...)` step of the chain. */
  datatype Criterion =
    | StatusIs(status: string)
    | CategoryIs(category: string)
    | Mentions(query: string)
    | LocatedIn(place: string)
    | PriceAtLeast(low: real)
    | PriceAtMost(high: real)

  /** The test each step applies to a listing. */
  predicate Holds(c: Criterion, l: Listing) {
    match c
    case StatusIs(s) => l.status == s
    case CategoryIs(t) => l.category == t
    case Mentions(q) =>
      var needle := ToLower(q);
      Contains(ToLower(l.title), needle) || Contains(ToLower(l.species), needle)
        || Contains(ToLower(l.description), needle)
    case LocatedIn(p) => Contains(ToLower(l.location), ToLower(p))
    case PriceAtLeast(low) => l.price >= low
    case PriceAtMost(high) => l.price <= high
  }

  /** The steps the chain runs for `f`, in the order of the source. */
  function Criteria(f: Filters): seq<Criterion> {
    var s0 := [StatusIs(f.status.GetOr("active"))];
    var s1 := AddIf(s0, Truthy(f.category), CategoryIs(f.category.GetOr("")));
    var s2 := AddIf(s1, Truthy(f.search), Mentions(f.search.GetOr("")));
    var s3 := AddIf(s2, Truthy(f.location), LocatedIn(f.location.GetOr("")));
    var s4 := AddIf(s3, f.minPrice.Some?, PriceAtLeast(f.minPrice.GetOr(0.0)));
    AddIf(s4, f.maxPrice.Some?, PriceAtMost(f.maxPrice.GetOr(0.0)))
  }

  /** `cs` followed by `c` when the guard of its step holds. */
  function AddIf(cs: seq<Criterion>, guard: bool, c: Criterion): seq<Criterion> {
    if guard then cs + [c] else cs
  }

  predicate HoldsAll(cs: seq<Criterion>, l: Listing) {
    forall i | 0 <= i < |cs| :: Holds(cs[i], l)
  }

  /** A listing survives the chain for `f`. */
  predicate Matches(f: Filters, l: Listing) {
    HoldsAll(Criteria(f), l)
  }

  /** `ls.filter(l => Holds(c, l))`: one step of the chain. */
  function Keep(ls: seq<Listing>, c: Criterion): (r: seq<Listing>)
    ensures forall l :: multiset(r)[l] == if Holds(c, l) then multiset(ls)[l] else 0
    ensures IsSubsequence(r, ls)
  {
    assert ls != [] ==> ls == [ls[0]] + ls[1..];
    if ls == [] then []
    else if Holds(c, ls[0]) then [ls[0]] + Keep(ls[1..], c)
    else Keep(ls[1..], c)
  }

  /** The listings of `ls` that pass every criterion of `cs`, in one pass and in order. */
  function SelectAll(ls: seq<Listing>, cs: seq<Criterion>): (r: seq<Listing>)
    ensures forall l :: multiset(r)[l] == if HoldsAll(cs, l) then multiset(ls)[l] else 0
    ensures IsSubsequence(r, ls)
  {
    if ls == [] then []
    else
      assert ls == [ls[0]] + ls[1..];
      if HoldsAll(cs, ls[0]) then [ls[0]] + SelectAll(ls[1..], cs) else SelectAll(ls[1..], cs)
  }

  /** The listings of `ls` that match `f`, in their original order. */
  function Select(ls: seq<Listing>, f: Filters): seq<Listing> {
    SelectAll(ls, Criteria(f))
  }

  /** Selecting with no criterion keeps everything. */
  lemma {:induction false} SelectNothing(ls: seq<Listing>)
    ensures SelectAll(ls, []) == ls
  {
    if ls != [] {
      SelectNothing(ls[1..]);
    }
  }

  /** One more filter step after a selection is the selection with one more criterion. */
  lemma {:induction false} KeepAfterSelect(ls: seq<Listing>, cs: seq<Criterion>, c: Criterion)
    ensures Keep(SelectAll(ls, cs), c) == SelectAll(ls, cs + [c])
  {
    if ls != [] {
      KeepAfterSelect(ls[1..], cs, c);
      HoldsAllSnoc(cs, c, ls[0]);
    }
  }

  /**
   * The filter chain, read field by field: the status must equal the requested
   * one (or "active" when none is requested); a non-empty type must match
   * exactly; a non-empty search must occur, ignoring case, in the title, the
   * species or the description; a non-empty location must occur, ignoring
   * case, in the location; the price bounds are inclusive.
   */
  lemma MatchesIff(f: Filters, l: Listing)
    ensures Matches(f, l) <==>
      && (if f.status.Some? then l.status == f.status.value else l.status == "active")
      && (Truthy(f.category) ==> l.category == f.category.value)
      && (Truthy(f.search) ==>
            Contains(ToLower(l.title), ToLower(f.search.value))
            || Contains(ToLower(l.species), ToLower(f.search.value))
            || Contains(ToLower(l.description), ToLower(f.search.value)))
      && (Truthy(f.location) ==> Contains(ToLower(l.location), ToLower(f.location.value)))
      && (f.minPrice.Some? ==> f.minPrice.value <= l.price)
      && (f.maxPrice.Some? ==> l.price <= f.maxPrice.value)
  {
    var s0 := [StatusIs(f.status.GetOr("active"))];
    var s1 := AddIf(s0, Truthy(f.category), CategoryIs(f.category.GetOr("")));
    var s2 := AddIf(s1, Truthy(f.search), Mentions(f.search.GetOr("")));
    var s3 := AddIf(s2, Truthy(f.location), LocatedIn(f.location.GetOr("")));
    var s4 := AddIf(s3, f.minPrice.Some?, PriceAtLeast(f.minPrice.GetOr(0.0)));
    assert HoldsAll(s0, l) <==> Holds(s0[0], l);
    HoldsAllSnoc(s0, CategoryIs(f.category.GetOr("")), l);
    HoldsAllSnoc(s1, Mentions(f.search.GetOr("")), l);
    HoldsAllSnoc(s2, LocatedIn(f.location.GetOr("")), l);
    HoldsAllSnoc(s3, PriceAtLeast(f.minPrice.GetOr(0.0)), l);
    HoldsAllSnoc(s4, PriceAtMost(f.maxPrice.GetOr(0.0)), l);
  }

  lemma HoldsAllSnoc(cs: seq<Criterion>, c: Criterion, l: Listing)
    ensures HoldsAll(cs + [c], l) <==> HoldsAll(cs, l) && Holds(c, l)
  {
    assert (cs + [c])[|cs|] == c;
    assert forall i | 0 <= i < |cs| :: (cs + [c])[i] == cs[i];
  }

  // ---------------------------------------------------------------------------
  // Sorting

  /** The three orders the source implements; every other `sortBy` falls through to newest first. */
  datatype Order = PriceAscending | PriceDescending | NewestFirst

  /** `if (sortBy === 'price-asc') ... else if (sortBy === 'price-desc') ... else ...`. */
  function OrderOf(sortBy: Option<string>): (o: Order)
    ensures o == PriceAscending <==> sortBy == Some("price-asc")
    ensures o == PriceDescending <==> sortBy == Some("price-desc")
    ensures o == NewestFirst <==> sortBy != Some("price-asc") && sortBy != Some("price-desc")
  {
    if sortBy == Some("price-asc") then PriceAscending
    else if sortBy == Some("price-desc") then PriceDescending
    else NewestFirst
  }

  /**
   * The comparator of each order as a key to sort ascending by: the comparators
   * `a.price - b.price`, `b.price - a.price` and `date(b) - date(a)` put `a`
   * first exactly when its key is smaller.
   */
  function Key(o: Order, l: Listing): real {
    match o
    case PriceAscending => l.price
    case PriceDescending => -l.price
    case NewestFirst => -(l.datePosted as real)
  }

  /** The comparator `result.sort` receives for each order: `a` goes first when it is negative. */
  function Compare(o: Order, a: Listing, b: Listing): real {
    match o
    case PriceAscending => a.price - b.price
    case PriceDescending => b.price - a.price
    case NewestFirst => (b.datePosted - a.datePosted) as real
  }

  /** Ordering by the key is ordering by the comparator, and equal keys are the comparator's ties. */
  lemma KeyMatchesComparator(o: Order, a: Listing, b: Listing)
    ensures Key(o, a) <= Key(o, b) <==> Compare(o, a, b) <= 0.0
    ensures Key(o, a) == Key(o, b) <==> Compare(o, a, b) == 0.0
  {
  }

  predicate Sorted(s: seq<Listing>, o: Order) {
    forall i, j | 0 <= i < j < |s| :: Key(o, s[i]) <= Key(o, s[j])
  }

  /** The listings of `s` whose key is `k`, in order: stability says the sort keeps this sequence. */
  function WithKey(s: seq<Listing>, o: Order, k: real): seq<Listing> {
    if s == [] then []
    else if Key(o, s[0]) == k then [s[0]] + WithKey(s[1..], o, k)
    else WithKey(s[1..], o, k)
  }

  /** Puts `x` in front of the first element whose key is not smaller than its own. */
  function Insert(x: Listing, s: seq<Listing>, o: Order): (r: seq<Listing>)
    requires Sorted(s, o)
    ensures Sorted(r, o)
    ensures multiset(r) == multiset{x} + multiset(s)
  {
    if s == [] || Key(o, x) <= Key(o, s[0]) then
      InsertInFront(x, s, o);
      [x] + s
    else
      var rest := Insert(x, s[1..], o);
      InsertBehindHead(x, s, rest, o);
      [s[0]] + rest
  }

  /** An element no larger than the head of a sorted sequence may go in front of it. */
  lemma InsertInFront(x: Listing, s: seq<Listing>, o: Order)
    requires Sorted(s, o)
    requires s == [] || Key(o, x) <= Key(o, s[0])
    ensures Sorted([x] + s, o)
  {
    forall z | z in s ensures Key(o, x) <= Key(o, z) {
      var j :| 0 <= j < |s| && s[j] == z;
      assert Key(o, s[0]) <= Key(o, s[j]);
    }
    PrependSorted(x, s, o);
  }

  /** The head of a sorted sequence stays in front when a larger element is inserted into its tail. */
  lemma InsertBehindHead(x: Listing, s: seq<Listing>, rest: seq<Listing>, o: Order)
    requires Sorted(s, o) && s != [] && Key(o, x) > Key(o, s[0])
    requires Sorted(rest, o) && multiset(rest) == multiset{x} + multiset(s[1..])
    ensures Sorted([s[0]] + rest, o)
    ensures multiset([s[0]] + rest) == multiset{x} + multiset(s)
  {
    assert s == [s[0]] + s[1..];
    forall y | y in rest ensures Key(o, s[0]) <= Key(o, y) {
      assert y in multiset(rest);
      if y != x {
        assert y in multiset(s[1..]);
        var j :| 0 <= j < |s| - 1 && s[1..][j] == y;
        assert s[j + 1] == y;
      }
    }
    PrependSorted(s[0], rest, o);
  }

  lemma PrependSorted(y: Listing, t: seq<Listing>, o: Order)
    requires Sorted(t, o)
    requires forall z | z in t :: Key(o, y) <= Key(o, z)
    ensures Sorted([y] + t, o)
  {
    var r := [y] + t;
    forall i, j | 0 <= i < j < |r| ensures Key(o, r[i]) <= Key(o, r[j]) {
      assert r[j] == t[j - 1];
      if i > 0 {
        assert r[i] == t[i - 1];
      }
    }
  }

  /** `result.sort(comparator)`: a stable insertion sort. */
  function Sort(s: seq<Listing>, o: Order): (r: seq<Listing>)
    ensures Sorted(r, o)
    ensures multiset(r) == multiset(s)
  {
    if s == [] then []
    else
      assert s == [s[0]] + s[1..];
      Insert(s[0], Sort(s[1..], o), o)
  }

  lemma {:induction false} InsertWithKey(x: Listing, s: seq<Listing>, o: Order, k: real)
    requires Sorted(s, o)
    ensures WithKey(Insert(x, s, o), o, k)
         == (if Key(o, x) == k then [x] else []) + WithKey(s, o, k)
  {
    InsertStep(x, s, o);
    if s == [] || Key(o, x) <= Key(o, s[0]) {
      WithKeyCons(x, s, o, k);
    } else {
      InsertWithKey(x, s[1..], o, k);
      WithKeyPast(x, s, Insert(x, s[1..], o), o, k);
    }
  }

  lemma WithKeyCons(y: Listing, t: seq<Listing>, o: Order, k: real)
    ensures WithKey([y] + t, o, k) == (if Key(o, y) == k then [y] else []) + WithKey(t, o, k)
  {
    assert ([y] + t)[1..] == t;
  }

  /** Keeping the head of `s` in front of the tail `x` went into keeps the keyed subsequence's order. */
  lemma WithKeyPast(x: Listing, s: seq<Listing>, rest: seq<Listing>, o: Order, k: real)
    requires s != [] && Key(o, s[0]) < Key(o, x)
    requires WithKey(rest, o, k) == (if Key(o, x) == k then [x] else []) + WithKey(s[1..], o, k)
    ensures WithKey([s[0]] + rest, o, k) == (if Key(o, x) == k then [x] else []) + WithKey(s, o, k)
  {
    WithKeyCons(s[0], rest, o, k);
    if Key(o, x) == k {
      assert WithKey(s, o, k) == WithKey(s[1..], o, k);
    } else {
      assert WithKey(rest, o, k) == WithKey(s[1..], o, k);
    }
  }

  /** The sort is stable: listings with equal keys keep their relative order. */
  lemma {:induction false} SortStable(s: seq<Listing>, o: Order, k: real)
    ensures WithKey(Sort(s, o), o, k) == WithKey(s, o, k)
  {
    if s != [] {
      SortStable(s[1..], o, k);
      InsertWithKey(s[0], Sort(s[1..], o), o, k);
    }
  }

  // ---------------------------------------------------------------------------
  // The pipeline

  /**
   * The `filteredListings` computation: copy the listings, run the filter
   * chain step by step, then sort. The result holds exactly the matching
   * listings, sorted by the requested order, with ties in their original order.
   */
  method FilteredListings(listings: seq<Listing>, f: Filters) returns (result: seq<Listing>)
    ensures multiset(result) == multiset(Select(listings, f))
    ensures Sorted(result, OrderOf(f.sortBy))
    ensures forall k :: WithKey(result, OrderOf(f.sortBy), k) == WithKey(Select(listings, f), OrderOf(f.sortBy), k)
  {
    result := listings;
    ghost var applied: seq<Criterion> := [];
    SelectNothing(listings);

    var c := StatusIs(f.status.GetOr("active"));
    KeepAfterSelect(listings, applied, c);
    assert applied + [c] == [c];
    result, applied := Keep(result, c), [c];
    assert result == SelectAll(listings, applied);

    c := CategoryIs(f.category.GetOr(""));
    if Truthy(f.category) {
      KeepAfterSelect(listings, applied, c);
      result := Keep(result, c);
    }
    applied := AddIf(applied, Truthy(f.category), c);
    assert result == SelectAll(listings, applied);

    c := Mentions(f.search.GetOr(""));
    if Truthy(f.search) {
      KeepAfterSelect(listings, applied, c);
      result := Keep(result, c);
    }
    applied := AddIf(applied, Truthy(f.search), c);
    assert result == SelectAll(listings, applied);

    c := LocatedIn(f.location.GetOr(""));
    if Truthy(f.location) {
      KeepAfterSelect(listings, applied, c);
      result := Keep(result, c);
    }
    applied := AddIf(applied, Truthy(f.location), c);
    assert result == SelectAll(listings, applied);

    c := PriceAtLeast(f.minPrice.GetOr(0.0));
    if f.minPrice.Some? {
      KeepAfterSelect(listings, applied, c);
      result := Keep(result, c);
    }
    applied := AddIf(applied, f.minPrice.Some?, c);
    assert result == SelectAll(listings, applied);

    c := PriceAtMost(f.maxPrice.GetOr(0.0));
    if f.maxPrice.Some? {
      KeepAfterSelect(listings, applied, c);
      result := Keep(result, c);
    }
    applied := AddIf(applied, f.maxPrice.Some?, c);
    assert result == SelectAll(listings, applied);
    assert applied == Criteria(f);
    var filtered := result;
    assert filtered == Select(listings, f);

    result := Sort(result, OrderOf(f.sortBy));
    forall k ensures WithKey(result, OrderOf(f.sortBy), k) == WithKey(filtered, OrderOf(f.sortBy), k) {
      SortStable(filtered, OrderOf(f.sortBy), k);
    }
  }

  // ---------------------------------------------------------------------------
  // What the result means

  /** A listing is in the selection exactly when it is in the input and matches the filters. */
  lemma SelectMembers(ls: seq<Listing>, f: Filters, l: Listing)
    ensures l in Select(ls, f) <==> l in ls && Matches(f, l)
  {
    var r := Select(ls, f);
    assert l in r <==> multiset(r)[l] > 0;
    assert l in ls <==> multiset(ls)[l] > 0;
  }

  /**
   * What each `sortBy` means for a sorted result: "price-asc" gives
   * non-decreasing prices, "price-desc" non-increasing prices, and every other
   * value (undefined, "date-desc", and also "date-asc") the newest listing first.
   */
  lemma OrderMeaning(s: seq<Listing>, sortBy: Option<string>)
    requires Sorted(s, OrderOf(sortBy))
    ensures sortBy == Some("price-asc") ==> forall i, j | 0 <= i < j < |s| :: s[i].price <= s[j].price
    ensures sortBy == Some("price-desc") ==> forall i, j | 0 <= i < j < |s| :: s[i].price >= s[j].price
    ensures sortBy != Some("price-asc") && sortBy != Some("price-desc") ==>
              forall i, j | 0 <= i < j < |s| :: s[i].datePosted >= s[j].datePosted
  {
    if sortBy != Some("price-asc") && sortBy != Some("price-desc") {
      forall i, j | 0 <= i < j < |s| ensures s[i].datePosted >= s[j].datePosted {
        assert Key(NewestFirst, s[i]) <= Key(NewestFirst, s[j]);
      }
    }
  }

  /** The browse page's "Oldest First" (`date-asc`) is not recognised and sorts newest first. */
  lemma OldestFirstSortsNewestFirst(a: Listing, b: Listing)
    requires a.datePosted < b.datePosted
    ensures Sort([a, b], OrderOf(Some("date-asc"))) == [b, a]
  {
    SortTwo(a, b, NewestFirst);
  }

  /** The home page's `useListings()`: exactly the active listings, newest first. */
  lemma NoFiltersListsActive(ls: seq<Listing>, l: Listing)
    ensures l in Select(ls, NoFilters()) <==> l in ls && l.status == "active"
    ensures OrderOf(NoFilters().sortBy) == NewestFirst
  {
    SelectMembers(ls, NoFilters(), l);
    MatchesIff(NoFilters(), l);
  }

  /** Without a status filter a listing whose status is not "active" never appears. */
  lemma DefaultStatusIsActive(ls: seq<Listing>, f: Filters, l: Listing)
    requires f.status.None? && l.status != "active"
    ensures l !in Select(ls, f)
  {
    SelectMembers(ls, f, l);
    MatchesIff(f, l);
  }

  lemma InsertStep(x: Listing, s: seq<Listing>, o: Order)
    requires Sorted(s, o)
    ensures s == [] || Key(o, x) <= Key(o, s[0]) ==> Insert(x, s, o) == [x] + s
    ensures s != [] && Key(o, x) > Key(o, s[0]) ==> Insert(x, s, o) == [s[0]] + Insert(x, s[1..], o)
  {
  }

  lemma SortStep(s: seq<Listing>, o: Order)
    requires s != []
    ensures Sort(s, o) == Insert(s[0], Sort(s[1..], o), o)
  {
  }

  lemma SortOne(x: Listing, o: Order)
    ensures Sort([x], o) == [x]
  {
    SortStep([x], o);
    assert [x][1..] == [];
    InsertStep(x, [], o);
  }

  /** Sorting two listings swaps them exactly when the first has the larger key. */
  lemma SortTwo(x: Listing, y: Listing, o: Order)
    ensures Key(o, x) <= Key(o, y) ==> Sort([x, y], o) == [x, y]
    ensures Key(o, x) > Key(o, y) ==> Sort([x, y], o) == [y, x]
  {
    SortStep([x, y], o);
    assert [x, y][1..] == [y];
    SortOne(y, o);
    InsertStep(x, [y], o);
    assert [y][1..] == [];
    InsertStep(x, [], o);
  }

  /** The search "lorikeet" finds a listing whose species is "Rainbow Lorikeet", whatever the case. */
  lemma SearchIgnoresCase(l: Listing)
    requires l.species == "Rainbow Lorikeet"
    ensures Holds(Mentions("lorikeet"), l)
  {
    assert ToLower("lorikeet") == "lorikeet";
    assert ToLower(l.species) == "rainbow lorikeet";
    assert OccursAt(ToLower(l.species), "lorikeet", 8);
  }
}

=== FILE: storage.dfy ===
/**
 * The listing store of src/utils/storage.js: the persisted object
 * `{ listings, myListingIds }`, seeded with ten sample listings on first use,
 * and its create / read / update / delete operations.
 *
 * The browser's localStorage slot is modelled by the fields of `Store`:
 * `hasData` says whether the slot holds anything, `listings` and `myIds` are
 * its contents. Serialisation to JSON is not modelled.
 */
module Storage {
  import opened Wrappers
  import opened ListingModel

  /** The persisted state. */
  datatype StoreData = StoreData(listings: seq<Listing>, myListingIds: seq<string>)

  /** The `k`-th (from 0) of the ten sample listings written when the store is first used. */
  function SeedRecord(k: nat): Listing
    requires k < 10
  {
    match k
    case 0 =>
      Listing("1", "bird", "Rainbow Lorikeet Breeding Pair", "Rainbow Lorikeet",
        "", 800.0, "Auckland", [], "", "", "", 1759312800000, "active")
    case 1 =>
      Listing("2", "equipment", "Large Bird Cage with Accessories", "",
        "", 150.0, "Wellington", [], "", "", "", 1759415400000, "active")
    case 2 =>
      Listing("3", "bird", "Hand-Raised Cockatoo Baby", "Sulphur-Crested Cockatoo",
        "", 2500.0, "Christchurch", [], "", "", "", 1759482900000, "active")
    case 3 =>
      Listing("4", "food", "Premium Parrot Pellets 20kg", "",
        "", 95.0, "Nationwide", [], "", "", "", 1759046400000, "active")
    case 4 =>
      Listing("5", "bird", "Budgies - Various Colors", "Budgerigar",
        "", 30.0, "Hamilton", [], "", "", "", 1759596300000, "active")
    case 5 =>
      Listing("6", "supplies", "Nesting Boxes - Handmade", "",
        "", 35.0, "Dunedin", [], "", "", "", 1759231200000, "active")
    case 6 =>
      Listing("7", "bird", "Kakariki Pair - Red Fronted", "Red-Fronted Kakariki",
        "", 350.0, "Palmerston North", [], "", "", "", 1759669200000, "active")
    case 7 =>
      Listing("8", "wanted", "Wanted: Aviary Panels", "",
        "", 0.0, "Auckland", [], "", "", "", 1759746600000, "active")
    case 8 =>
      Listing("9", "equipment", "Outdoor Aviary - Complete Setup", "",
        "", 450.0, "Tauranga", [], "", "", "", 1759158000000, "active")
    case 9 =>
      Listing("10", "bird", "Cockatiel Babies - Handfed", "Cockatiel",
        "", 120.0, "Nelson", [], "", "", "", 1759825800000, "active")
  }

  /** The ten sample listings written when the store is first used, in the order they are written. */
  function SeedListings(): seq<Listing> {
    seq(10, k requires 0 <= k < 10 => SeedRecord(k))
  }

  function SeedData(): StoreData {
    StoreData(SeedListings(), [])
  }

  /** The seed holds ten listings with ids "1" to "10", in that order. */
  lemma SeedIds()
    ensures |SeedListings()| == 10
    ensures forall i | 0 <= i < 9 :: SeedListings()[i].id == [('1' as int + i) as char]
    ensures SeedListings()[9].id == "10"
  {
  }

  /** Every sample listing is active, and each of the five categories occurs among them. */
  lemma SeedActiveInEveryCategory()
    ensures forall l | l in SeedListings() :: l.status == "active"
    ensures forall c | c in ["bird", "equipment", "food", "supplies", "wanted"] ::
              exists l | l in SeedListings() :: l.category == c
  {
    var s := SeedListings();
    assert s[0].category == "bird" && s[1].category == "equipment" && s[3].category == "food";
    assert s[5].category == "supplies" && s[7].category == "wanted";
  }

  // ---------------------------------------------------------------------------
  // Queries over the listing sequence

  /** Some listing carries `id`. */
  predicate HasId(ls: seq<Listing>, id: string) {
    exists i | 0 <= i < |ls| :: ls[i].id == id
  }

  /** `listings.findIndex(l => l.id === id)`, with None for -1. */
  function FindIndex(ls: seq<Listing>, id: string): (r: Option<nat>)
    ensures r.None? <==> !HasId(ls, id)
    ensures r.Some? ==> r.value < |ls| && ls[r.value].id == id
    ensures r.Some? ==> forall j | 0 <= j < r.value :: ls[j].id != id
  {
    if ls == [] then None
    else if ls[0].id == id then Some(0)
    else match FindIndex(ls[1..], id)
      case None => None
      case Some(k) => Some(k + 1)
  }

  /** `listings.find(l => l.id === id)`: the first listing with that id, if any. */
  function FindListing(ls: seq<Listing>, id: string): (r: Option<Listing>)
    ensures r.None? <==> !HasId(ls, id)
    ensures r.Some? ==> r.value.id == id
    ensures r.Some? ==> exists i | 0 <= i < |ls| :: ls[i] == r.value && forall j | 0 <= j < i :: ls[j].id != id
  {
    match FindIndex(ls, id)
    case None => None
    case Some(i) => Some(ls[i])
  }

  /** `listings.filter(l => l.id !== id)`. */
  function RemoveListing(ls: seq<Listing>, id: string): (r: seq<Listing>)
    ensures forall l :: multiset(r)[l] == if l.id == id then 0 else multiset(ls)[l]
    ensures IsSubsequence(r, ls)
  {
    if ls == [] then []
    else
      assert ls == [ls[0]] + ls[1..];
      if ls[0].id == id then RemoveListing(ls[1..], id)
      else [ls[0]] + RemoveListing(ls[1..], id)
  }

  /** `myListingIds.filter(x => x !== id)`. */
  function RemoveId(ids: seq<string>, id: string): (r: seq<string>)
    ensures forall x :: multiset(r)[x] == if x == id then 0 else multiset(ids)[x]
    ensures IsSubsequence(r, ids)
  {
    if ids == [] then []
    else
      assert ids == [ids[0]] + ids[1..];
      if ids[0] == id then RemoveId(ids[1..], id)
      else [ids[0]] + RemoveId(ids[1..], id)
  }

  /** `listings.filter(l => myListingIds.includes(l.id))`. */
  function Owned(ls: seq<Listing>, ids: seq<string>): (r: seq<Listing>)
    ensures forall l :: multiset(r)[l] == if l.id in ids then multiset(ls)[l] else 0
    ensures IsSubsequence(r, ls)
  {
    if ls == [] then []
    else
      assert ls == [ls[0]] + ls[1..];
      if ls[0].id in ids then [ls[0]] + Owned(ls[1..], ids)
      else Owned(ls[1..], ids)
  }

  /** The listing `addListing` stores: the caller's fields with `id`, `datePosted` and `status` replaced. */
  function Stamped(fields: Listing, newId: string, now: int): (r: Listing)
    ensures r.id == newId && r.datePosted == now && r.status == "active"
    ensures r.(id := fields.id, datePosted := fields.datePosted, status := fields.status) == fields
  {
    fields.(id := newId, datePosted := now, status := "active")
  }

  // ---------------------------------------------------------------------------
  // Invariant of the persisted state

  ghost predicate UniqueIds(ls: seq<Listing>) {
    forall i, j | 0 <= i < j < |ls| :: ls[i].id != ls[j].id
  }

  /** Ids are unique and every owned id names a stored listing. */
  ghost predicate Consistent(d: StoreData) {
    && UniqueIds(d.listings)
    && forall x | x in d.myListingIds :: HasId(d.listings, x)
  }

  // ---------------------------------------------------------------------------
  // The store

  class Store {
    /** Whether the storage slot holds any data. */
    var hasData: bool
    var listings: seq<Listing>
    var myIds: seq<string>

    /** A browser whose storage slot is empty. */
    constructor ()
      ensures !hasData && listings == [] && myIds == []
    {
      hasData := false;
      listings := [];
      myIds := [];
    }

    /** What `getData()` returns: the stored data, or the seed when nothing is stored. */
    function Data(): (d: StoreData)
      reads this
      ensures hasData ==> d == StoreData(listings, myIds)
      ensures !hasData ==> d == SeedData() && Consistent(d)
    {
      if hasData then StoreData(listings, myIds)
      else
        SeedConsistent();
        SeedData()
    }

    /**
     * `initializeStorage()`: with nothing stored, write and return the seed;
     * with data stored, return it and write nothing.
     */
    method Initialize() returns (d: StoreData)
      modifies this
      ensures hasData && d == Data() && d == old(Data())
      ensures old(hasData) ==> unchanged(this)
      ensures !old(hasData) ==> listings == SeedListings() && myIds == []
    {
      if !hasData {
        listings, myIds := SeedListings(), [];
        hasData := true;
      }
      d := StoreData(listings, myIds);
    }

    /** `getListings()`. */
    function GetListings(): (ls: seq<Listing>)
      reads this
      ensures hasData ==> ls == listings
      ensures !hasData ==> ls == SeedListings() && |ls| == 10
    {
      SeedIds();
      Data().listings
    }

    /** `getListing(id)`. */
    function GetListing(id: string): (r: Option<Listing>)
      reads this
      ensures r.None? <==> !HasId(GetListings(), id)
      ensures r.Some? ==> r.value.id == id && r.value in GetListings()
      ensures r.Some? ==> exists i | 0 <= i < |GetListings()| ::
                GetListings()[i] == r.value && forall j | 0 <= j < i :: GetListings()[j].id != id
    {
      FindListing(Data().listings, id)
    }

    /** `getMyListings()`. */
    function GetMyListings(): (r: seq<Listing>)
      reads this
      ensures forall l :: multiset(r)[l] == if IsMyListing(l.id) then multiset(GetListings())[l] else 0
      ensures IsSubsequence(r, GetListings())
    {
      Owned(Data().listings, Data().myListingIds)
    }

    /** `isMyListing(id)`. */
    function IsMyListing(id: string): (b: bool)
      reads this
      ensures b <==> exists i | 0 <= i < |Data().myListingIds| :: Data().myListingIds[i] == id
      ensures b && Consistent(Data()) ==> GetListing(id).Some?
    {
      id in Data().myListingIds
    }

    /**
     * `addListing(fields)`, with the id that `Date.now()` would give passed in as
     * `newId` and the current time as `now`. The new listing goes to the front,
     * its id to the end of the owned ids.
     */
    method AddListing(fields: Listing, newId: string, now: int) returns (r: Listing)
      requires !HasId(Data().listings, newId)
      modifies this
      ensures r == Stamped(fields, newId, now)
      ensures hasData
      ensures listings == [r] + old(Data()).listings
      ensures myIds == old(Data()).myListingIds + [newId]
      ensures GetListing(newId) == Some(r) && IsMyListing(newId)
      ensures old(Consistent(Data())) ==> Consistent(Data())
    {
      var d := Initialize();
      r := Stamped(fields, newId, now);
      listings := [r] + d.listings;
      myIds := d.myListingIds + [newId];
      AddKeepsConsistent(d, r);
    }

    /**
     * `updateListing(id, updates)`: the first listing with that id becomes
     * `{ ...listing, ...updates }` and is returned; with no such listing nothing
     * changes and None (`null`) is returned.
     */
    method UpdateListing(id: string, updates: ListingPatch) returns (r: Option<Listing>)
      modifies this
      ensures hasData && myIds == old(Data()).myListingIds
      ensures match FindIndex(old(Data()).listings, id)
        case None => r == None && listings == old(Data()).listings
        case Some(i) =>
        && listings == old(Data()).listings[i := Merge(old(Data()).listings[i], updates)]
        && r == Some(listings[i])
      ensures old(Consistent(Data())) && updates.id.None? ==> Consistent(Data())
    {
      var d := Initialize();
      var index := FindIndex(d.listings, id);
      match index
      case None =>
        r := None;
      case Some(i) =>
        listings := d.listings[i := Merge(d.listings[i], updates)];
        r := Some(listings[i]);
        UpdateKeepsConsistent(d, i, updates);
    }

    /** `deleteListing(id)`: drop every listing with that id and every occurrence of it among the owned ids. */
    method DeleteListing(id: string)
      modifies this
      ensures hasData
      ensures listings == RemoveListing(old(Data()).listings, id)
      ensures myIds == RemoveId(old(Data()).myListingIds, id)
      ensures GetListing(id) == None && !IsMyListing(id)
      ensures old(Consistent(Data())) ==> Consistent(Data())
      ensures old(Consistent(Data())) && !old(HasId(Data().listings, id)) ==> Data() == old(Data())
    {
      var d := Initialize();
      if Consistent(d) && !HasId(d.listings, id) {
        DeleteMissingChangesNothing(d, id);
      }
      listings := RemoveListing(d.listings, id);
      myIds := RemoveId(d.myListingIds, id);
      assert multiset(myIds)[id] == 0;
      RemoveListingDropsId(d.listings, id);
      DeleteKeepsConsistent(d, id);
    }
  }

  // ---------------------------------------------------------------------------
  // Lemmas

  /** The seed satisfies the store invariant. */
  lemma SeedConsistent()
    ensures Consistent(SeedData())
  {
    var s := SeedListings();
    SeedIds();
    forall i, j | 0 <= i < j < |s| ensures s[i].id != s[j].id {
      if j < 9 {
        assert s[i].id[0] != s[j].id[0];
      } else {
        assert |s[i].id| != |s[j].id|;
      }
    }
  }

  /** The first listing with the id of the front listing is the front listing. */
  lemma FindFront(r: Listing, ls: seq<Listing>)
    ensures FindListing([r] + ls, r.id) == Some(r)
  {
  }

  /** After a removal no listing carries the removed id. */
  lemma {:induction false} RemoveListingDropsId(ls: seq<Listing>, id: string)
    ensures !HasId(RemoveListing(ls, id), id)
    ensures FindListing(RemoveListing(ls, id), id) == None
  {
    var r := RemoveListing(ls, id);
    forall i | 0 <= i < |r| ensures r[i].id != id {
      assert multiset(r)[r[i]] > 0;
    }
  }

  /** Deleting an id nobody carries changes nothing. */
  lemma {:induction false} RemoveMissing(ls: seq<Listing>, id: string)
    requires !HasId(ls, id)
    ensures RemoveListing(ls, id) == ls
  {
    if ls != [] {
      assert !HasId(ls[1..], id) by {
        forall i | 0 <= i < |ls| - 1 ensures ls[1..][i].id != id {
        assert ls[1..][i] == ls[i + 1];
        }
      }
      RemoveMissing(ls[1..], id);
    }
  }

  /** Removing an id that is not owned leaves the owned ids unchanged. */
  lemma {:induction false} RemoveIdMissing(ids: seq<string>, id: string)
    requires id !in ids
    ensures RemoveId(ids, id) == ids
  {
    if ids != [] {
      assert id !in ids[1..];
      RemoveIdMissing(ids[1..], id);
    }
  }

  /** In a consistent store, deleting an id no listing carries changes neither sequence. */
  lemma DeleteMissingChangesNothing(d: StoreData, id: string)
    requires Consistent(d) && !HasId(d.listings, id)
    ensures RemoveListing(d.listings, id) == d.listings
    ensures RemoveId(d.myListingIds, id) == d.myListingIds
  {
    RemoveMissing(d.listings, id);
    RemoveIdMissing(d.myListingIds, id);
  }

  /** Deleting twice is deleting once. */
  lemma {:induction false} RemoveTwice(ls: seq<Listing>, id: string)
    ensures RemoveListing(RemoveListing(ls, id), id) == RemoveListing(ls, id)
  {
    RemoveListingDropsId(ls, id);
    RemoveMissing(RemoveListing(ls, id), id);
  }

  /** Removing an id twice from the owned ids is removing it once. */
  lemma {:induction false} RemoveIdTwice(ids: seq<string>, id: string)
    ensures RemoveId(RemoveId(ids, id), id) == RemoveId(ids, id)
  {
    if ids != [] {
      RemoveIdTwice(ids[1..], id);
    }
  }

  /** The owned listings are the stored listings, filtered: in store order, each owned one with its multiplicity. */
  lemma OwnedIsSubset(d: StoreData, l: Listing)
    ensures l in Owned(d.listings, d.myListingIds) <==> l in d.listings && l.id in d.myListingIds
  {
    var r := Owned(d.listings, d.myListingIds);
    assert l in r <==> multiset(r)[l] > 0;
    assert l in d.listings <==> multiset(d.listings)[l] > 0;
  }

  lemma AddKeepsConsistent(d: StoreData, r: Listing)
    requires !HasId(d.listings, r.id)
    ensures Consistent(d) ==> Consistent(StoreData([r] + d.listings, d.myListingIds + [r.id]))
  {
    var ls := [r] + d.listings;
    if Consistent(d) {
      forall i, j | 0 <= i < j < |ls| ensures ls[i].id != ls[j].id {
        if i == 0 {
        assert ls[j] == d.listings[j - 1];
        } else {
        assert ls[i] == d.listings[i - 1] && ls[j] == d.listings[j - 1];
        }
      }
      forall x | x in d.myListingIds + [r.id] ensures HasId(ls, x) {
        if x == r.id {
        assert ls[0].id == x;
        } else {
        assert x in d.myListingIds;
        var i :| 0 <= i < |d.listings| && d.listings[i].id == x;
        assert ls[i + 1].id == x;
        }
      }
    }
  }

  /** An update that carries no `id` keeps the invariant. */
  lemma UpdateKeepsConsistent(d: StoreData, i: nat, p: ListingPatch)
    requires i < |d.listings|
    ensures Consistent(d) && p.id.None? ==>
            Consistent(StoreData(d.listings[i := Merge(d.listings[i], p)], d.myListingIds))
  {
    var ls := d.listings[i := Merge(d.listings[i], p)];
    if Consistent(d) && p.id.None? {
      assert forall k | 0 <= k < |ls| :: ls[k].id == d.listings[k].id;
      forall x | x in d.myListingIds ensures HasId(ls, x) {
        var k :| 0 <= k < |d.listings| && d.listings[k].id == x;
        assert ls[k].id == x;
      }
    }
  }

  /**
   * An update that carries an `id` can break the invariant: the store below
   * ends with two listings with id "2" after updating "1" with `{ id: "2" }`.
   */
  lemma UpdateCanDuplicateId(a: Listing, b: Listing)
    requires a.id == "1" && b.id == "2"
    ensures Consistent(StoreData([a, b], []))
    ensures !Consistent(StoreData([a, b][0 := Merge(a, NoChanges().(id := Some("2")))], []))
  {
    var ls := [a, b][0 := Merge(a, NoChanges().(id := Some("2")))];
    assert ls[0].id == ls[1].id;
  }

  lemma DeleteKeepsConsistent(d: StoreData, id: string)
    ensures Consistent(d) ==> Consistent(StoreData(RemoveListing(d.listings, id), RemoveId(d.myListingIds, id)))
  {
    var ls := RemoveListing(d.listings, id);
    var ids := RemoveId(d.myListingIds, id);
    if Consistent(d) {
      SubsequenceKeepsUnique(ls, d.listings);
      forall x | x in ids ensures HasId(ls, x) {
        assert multiset(ids)[x] > 0;
        assert x != id && x in d.myListingIds;
        var k :| 0 <= k < |d.listings| && d.listings[k].id == x;
        assert multiset(ls)[d.listings[k]] > 0;
        assert d.listings[k] in ls;
      }
    }
  }

  lemma {:induction false} SubsequenceKeepsUnique(a: seq<Listing>, b: seq<Listing>)
    requires IsSubsequence(a, b) && UniqueIds(b)
    ensures UniqueIds(a)
    decreases |b|
  {
    if a != [] {
      if a[0] == b[0] && IsSubsequence(a[1..], b[1..]) {
        SubsequenceKeepsUnique(a[1..], b[1..]);
        SubsequenceMembers(a[1..], b[1..]);
        forall i, j | 0 <= i < j < |a| ensures a[i].id != a[j].id {
        if i == 0 {
          assert a[j] == a[1..][j - 1];
          var k :| 0 <= k < |b| - 1 && b[1..][k] == a[j];
          assert b[k + 1] == a[j];
        } else {
          assert a[i] == a[1..][i - 1] && a[j] == a[1..][j - 1];
        }
        }
      } else {
        SubsequenceKeepsUnique(a, b[1..]);
      }
    }
  }

  lemma {:induction false} SubsequenceMembers<T>(a: seq<T>, b: seq<T>)
    requires IsSubsequence(a, b)
    ensures forall i | 0 <= i < |a| :: exists k | 0 <= k < |b| :: b[k] == a[i]
    decreases |b|
  {
    if a != [] {
      if a[0] == b[0] && IsSubsequence(a[1..], b[1..]) {
        SubsequenceMembers(a[1..], b[1..]);
        forall i | 0 <= i < |a| ensures exists k | 0 <= k < |b| :: b[k] == a[i] {
        if i == 0 {
          assert b[0] == a[0];
        } else {
          assert a[i] == a[1..][i - 1];
          var k :| 0 <= k < |b| - 1 && b[1..][k] == a[i];
          assert b[k + 1] == a[i];
        }
        }
      } else {
        SubsequenceMembers(a, b[1..]);
        forall i | 0 <= i < |a| ensures exists k | 0 <= k < |b| :: b[k] == a[i] {
        var k :| 0 <= k < |b| - 1 && b[1..][k] == a[i];
        assert b[k + 1] == a[i];
        }
      }
    }
  }
}

=== FILE: text.dfy ===
/**
 * The string operations the application borrows from JavaScript: `toLowerCase`,
 * `toUpperCase`, `trim`, `includes`, the regular-expression class `\s`, and the
 * decimal rendering of a whole number inside a template literal. All of them are
 * modelled over ASCII: Unicode case mapping and the non-ASCII members of `\s`
 * are not part of this model.
 */
module Text {

  /** The ASCII members of JavaScript's `\s` class, which are also what `trim` strips. */
  predicate IsSpace(c: char) {
    c == ' ' || c == '\t' || c == '\n' || c == '\r' || c == '\U{000B}' || c == '\U{000C}'
  }

  predicate IsDigit(c: char) {
    '0' <= c <= '9'
  }

  predicate AllDigits(s: string) {
    forall i | 0 <= i < |s| :: IsDigit(s[i])
  }

  /** A capital letter becomes its own lower-case letter; any other character is unchanged. */
  function LowerChar(c: char): (r: char)
    ensures 'A' <= c <= 'Z' ==> 'a' <= r <= 'z' && r as int - 'a' as int == c as int - 'A' as int
    ensures !('A' <= c <= 'Z') ==> r == c
  {
    if 'A' <= c <= 'Z' then (c as int + 32) as char else c
  }

  /** A lower-case letter becomes its own capital; any other character is unchanged. */
  function UpperChar(c: char): (r: char)
    ensures 'a' <= c <= 'z' ==> 'A' <= r <= 'Z' && r as int - 'A' as int == c as int - 'a' as int
    ensures !('a' <= c <= 'z') ==> r == c
  {
    if 'a' <= c <= 'z' then (c as int - 32) as char else c
  }

  /** Lowering undoes raising and raising undoes lowering, except on letters already of the target case. */
  lemma CaseRoundTrip(c: char)
    ensures !('A' <= c <= 'Z') ==> LowerChar(UpperChar(c)) == c
    ensures !('a' <= c <= 'z') ==> UpperChar(LowerChar(c)) == c
  {
  }

  /** `s.toLowerCase()`: the same length, each letter mapped on its own. */
  function ToLower(s: string): (r: string)
    ensures |r| == |s|
    ensures forall i :: 0 <= i < |s| ==> r[i] == LowerChar(s[i])
  {
    seq(|s|, i requires 0 <= i < |s| => LowerChar(s[i]))
  }

  /** `hay.includes(needle)`: `needle` occurs in `hay` at some offset (the empty string occurs everywhere). */
  predicate Contains(hay: string, needle: string) {
    exists i | 0 <= i <= |hay| :: OccursAt(hay, needle, i)
  }

  predicate OccursAt(hay: string, needle: string, i: int) {
    0 <= i && i + |needle| <= |hay| && hay[i..i + |needle|] == needle
  }

  /** The number of `\s` characters `s` starts with. */
  function LeadingSpaces(s: string): (n: nat)
    ensures n <= |s|
    ensures n == |s| || !IsSpace(s[n])
  {
    if s != [] && IsSpace(s[0]) then 1 + LeadingSpaces(s[1..]) else 0
  }

  /** What `LeadingSpaces` skips is all `\s`. */
  lemma {:induction false} LeadingSpacesAreSpaces(s: string)
    ensures forall i | 0 <= i < LeadingSpaces(s) :: IsSpace(s[i])
  {
    if s != [] && IsSpace(s[0]) {
      LeadingSpacesAreSpaces(s[1..]);
      forall i | 0 < i < LeadingSpaces(s) ensures IsSpace(s[i]) {
        assert s[i] == s[1..][i - 1];
      }
    }
  }

  /** The number of `\s` characters `s` ends with. */
  function TrailingSpaces(s: string): (n: nat)
    ensures n <= |s|
    ensures n == |s| || !IsSpace(s[|s| - n - 1])
  {
    if s != [] && IsSpace(s[|s| - 1]) then 1 + TrailingSpaces(s[..|s| - 1]) else 0
  }

  /** What `TrailingSpaces` skips is all `\s`. */
  lemma {:induction false} TrailingSpacesAreSpaces(s: string)
    ensures forall i | |s| - TrailingSpaces(s) <= i < |s| :: IsSpace(s[i])
  {
    if s != [] && IsSpace(s[|s| - 1]) {
      TrailingSpacesAreSpaces(s[..|s| - 1]);
      forall i | |s| - TrailingSpaces(s) <= i < |s| - 1 ensures IsSpace(s[i]) {
        assert s[i] == s[..|s| - 1][i];
      }
    }
  }

  /** Drops the leading `\s` characters. */
  function TrimStart(s: string): string {
    s[LeadingSpaces(s)..]
  }

  /** Drops the trailing `\s` characters. */
  function TrimEnd(s: string): string {
    s[..|s| - TrailingSpaces(s)]
  }

  /** `s.trim()`: a slice of `s` that neither starts nor ends with `\s`. */
  function Trim(s: string): (r: string)
    ensures |r| <= |s|
    ensures r == [] || (!IsSpace(r[0]) && !IsSpace(r[|r| - 1]))
    ensures exists a, b | 0 <= a <= b <= |s| ::
              && r == s[a..b]
              && (forall i | 0 <= i < a :: IsSpace(s[i]))
              && (forall i | b <= i < |s| :: IsSpace(s[i]))
  {
    var a := LeadingSpaces(s);
    var t := s[a..];
    var b := a + |t| - TrailingSpaces(t);
    LeadingSpacesAreSpaces(s);
    TrailingSpacesAreSpaces(t);
    assert forall i | b <= i < |s| :: s[i] == t[i - a];
    assert TrimEnd(t) == s[a..b];
    TrimEnd(TrimStart(s))
  }

  /** `s.replace(/\s/g, '')`: `s` with every `\s` character removed, the rest in order. */
  function RemoveSpaces(s: string): (r: string)
    ensures |r| <= |s|
    ensures forall i | 0 <= i < |r| :: !IsSpace(r[i])
    ensures forall i | 0 <= i < |s| :: !IsSpace(s[i]) ==> s[i] in r
  {
    if s == [] then []
    else if IsSpace(s[0]) then RemoveSpaces(s[1..])
    else [s[0]] + RemoveSpaces(s[1..])
  }

  /** Removing `\s` works piece by piece: it commutes with concatenation. */
  lemma {:induction false} RemoveSpacesAppend(a: string, b: string)
    ensures RemoveSpaces(a + b) == RemoveSpaces(a) + RemoveSpaces(b)
  {
    if a != [] {
      assert (a + b)[1..] == a[1..] + b;
      RemoveSpacesAppend(a[1..], b);
    } else {
      assert a + b == b;
    }
  }

  /** A string made only of `\s` characters vanishes. */
  lemma {:induction false} RemoveSpacesOfBlank(s: string)
    requires forall i | 0 <= i < |s| :: IsSpace(s[i])
    ensures RemoveSpaces(s) == []
  {
    if s != [] {
      RemoveSpacesOfBlank(s[1..]);
    }
  }

  function DigitChar(d: nat): (c: char)
    requires d < 10
    ensures IsDigit(c)
  {
    ('0' as int + d) as char
  }

  /** The number a string of decimal digits denotes, most significant digit first. */
  function DecimalValue(s: string): nat
    requires AllDigits(s)
  {
    if s == [] then 0
    else DecimalValue(s[..|s| - 1]) * 10 + (s[|s| - 1] as int - '0' as int)
  }

  /** The decimal text of `n` inside a template literal: digits that denote `n`, without sign or leading zeros. */
  function NatToString(n: nat): (r: string)
    ensures |r| > 0 && AllDigits(r)
    ensures DecimalValue(r) == n
    ensures n > 0 ==> r[0] != '0'
    ensures n == 0 ==> r == "0"
  {
    if n < 10 then [DigitChar(n)]
    else
      var front := NatToString(n / 10);
      assert (front + [DigitChar(n % 10)])[..|front|] == front;
      front + [DigitChar(n % 10)]
  }
}

=== FILE: validation.dfy ===
/**
 * Form validation: the e-mail and New Zealand phone languages written as
 * predicates, and the two validators that collect one error message per
 * failing field of the listing form and of the contact form.
 */
module Validation {
  import opened Text

  // ---------------------------------------------------------------- e-mail

  /** A character of `[^\s@]`. */
  predicate EmailChar(c: char) {
    !IsSpace(c) && c != '@'
  }

  /** A non-empty run of `[^\s@]`. */
  predicate Word(s: string) {
    |s| > 0 && forall k | 0 <= k < |s| :: EmailChar(s[k])
  }

  function EmailOf(local: string, domain: string, suffix: string): string {
    local + "@" + domain + "." + suffix
  }

  /**
   * `s` splits at the `@` at index `at` and the `.` at index `dot`: the `@` is
   * neither first nor directly before the dot, the dot is not last, and every
   * other character is an `EmailChar`.
   */
  predicate EmailSplit(s: string, at: int, dot: int) {
    0 < at && at + 1 < dot && dot + 1 < |s|
    && s[at] == '@' && s[dot] == '.'
    && forall k | 0 <= k < |s| && k != at :: EmailChar(s[k])
  }

  /** `isValidEmail`: the anchored pattern `[^\s@]+@[^\s@]+\.[^\s@]+`. */
  predicate IsValidEmail(s: string)
    ensures IsValidEmail(s) ==> 5 <= |s| && '@' in s && '.' in s
  {
    exists at, dot | 0 <= at < |s| && 0 <= dot < |s| :: EmailSplit(s, at, dot)
  }

  /** The valid addresses are exactly word `@` word `.` word; the middle word may hold dots. */
  lemma EmailShape(s: string)
    ensures IsValidEmail(s) <==>
      exists a, b, c :: Word(a) && Word(b) && Word(c) && s == EmailOf(a, b, c)
  {
    if IsValidEmail(s) {
      var at, dot :| 0 <= at < |s| && 0 <= dot < |s| && EmailSplit(s, at, dot);
      var a, b, c := s[..at], s[at + 1..dot], s[dot + 1..];
      assert Word(a) by {
        forall k | 0 <= k < |a| ensures EmailChar(a[k]) {
          assert a[k] == s[k];
        }
      }
      assert Word(b) by {
        forall k | 0 <= k < |b| ensures EmailChar(b[k]) {
          assert b[k] == s[at + 1 + k];
        }
      }
      assert Word(c) by {
        forall k | 0 <= k < |c| ensures EmailChar(c[k]) {
          assert c[k] == s[dot + 1 + k];
        }
      }
      assert s == EmailOf(a, b, c);
    }
    if exists a, b, c :: Word(a) && Word(b) && Word(c) && s == EmailOf(a, b, c) {
      var a, b, c :| Word(a) && Word(b) && Word(c) && s == EmailOf(a, b, c);
      var at, dot := |a|, |a| + 1 + |b|;
      forall k | 0 <= k < |s| && k != at ensures EmailChar(s[k]) {
        if k < at {
          assert s[k] == a[k];
        } else if k < dot {
          assert s[k] == b[k - at - 1];
        } else if k > dot {
          assert s[k] == c[k - dot - 1];
        }
      }
      assert EmailSplit(s, at, dot);
    }
  }

  // ----------------------------------------------------------------- phone

  /** `count` digits starting at index `from`. */
  predicate DigitsAt(t: string, from: nat, count: nat) {
    from + count <= |t| && forall k | from <= k < from + count :: IsDigit(t[k])
  }

  /** An optional `[\s-]` at index `at`: present when `width` is 1, absent when it is 0. */
  predicate SeparatorAt(t: string, at: nat, width: nat) {
    width == 0 || (at < |t| && (IsSpace(t[at]) || t[at] == '-'))
  }

  /**
   * `t` is `lead`, then `n` digits, an optional separator of width `h1`, three
   * digits, an optional separator of width `h2` and four digits, and nothing else.
   */
  predicate PhoneLayout(t: string, lead: string, n: nat, h1: nat, h2: nat) {
    var q := |lead| + n + h1;
    var r := q + 3 + h2;
    |t| == r + 4 && t[..|lead|] == lead
    && DigitsAt(t, |lead|, n) && SeparatorAt(t, |lead| + n, h1)
    && DigitsAt(t, q, 3) && SeparatorAt(t, q + 3, h2)
    && DigitsAt(t, r, 4)
  }

  /** The first alternative, `0\d{1,3}[\s-]?\d{3}[\s-]?\d{4}`. */
  predicate FirstAlternative(t: string) {
    exists n: nat, h1: nat, h2: nat | 1 <= n <= 3 && h1 <= 1 && h2 <= 1 :: PhoneLayout(t, "0", n, h1, h2)
  }

  /** The second alternative, `02\d[\s-]?\d{3}[\s-]?\d{4}`. */
  predicate SecondAlternative(t: string) {
    exists h1: nat, h2: nat | h1 <= 1 && h2 <= 1 :: PhoneLayout(t, "02", 1, h1, h2)
  }

  /** `isValidPhone`: an empty phone is accepted; otherwise the phone with its `\s` removed must match. */
  predicate IsValidPhone(phone: string)
    ensures phone != [] && IsValidPhone(phone) ==> 9 <= |RemoveSpaces(phone)| <= 13
  {
    PhoneLength(RemoveSpaces(phone));
    phone == [] || FirstAlternative(RemoveSpaces(phone)) || SecondAlternative(RemoveSpaces(phone))
  }

  /** Every number of the second alternative is one of the first, read with a two-digit area code. */
  lemma SecondAlternativeSubsumed(t: string)
    ensures SecondAlternative(t) ==> FirstAlternative(t)
  {
    if SecondAlternative(t) {
      var h1: nat, h2: nat :| h1 <= 1 && h2 <= 1 && PhoneLayout(t, "02", 1, h1, h2);
      assert t[..2] == "02";
      assert t[..1] == t[..2][..1];
      assert t[1] == t[..2][1];
      assert PhoneLayout(t, "0", 2, h1, h2);
    }
  }

  /** So a non-empty phone is valid exactly when it matches the first alternative once spaces are gone. */
  lemma PhoneFirstAlternativeSuffices(phone: string)
    ensures IsValidPhone(phone) <==> phone == [] || FirstAlternative(RemoveSpaces(phone))
  {
    SecondAlternativeSubsumed(RemoveSpaces(phone));
  }

  /** A number has between nine and thirteen characters once its spaces are removed. */
  lemma PhoneLength(t: string)
    ensures FirstAlternative(t) || SecondAlternative(t) ==> 9 <= |t| <= 13
  {
  }

  /** Both bounds are reached: a one-digit area code without separators, and a three-digit one with both. */
  lemma PhoneLengthReached()
    ensures FirstAlternative("012345678") && |"012345678"| == 9
    ensures FirstAlternative("0123-456-7890") && |"0123-456-7890"| == 13
  {
    assert PhoneLayout("012345678", "0", 1, 0, 0);
    assert PhoneLayout("0123-456-7890", "0", 3, 1, 1);
  }

  /** A phone made only of white space is given, and rejected. */
  lemma BlankPhoneInvalid(phone: string)
    requires phone != []
    requires forall i | 0 <= i < |phone| :: IsSpace(phone[i])
    ensures !IsValidPhone(phone)
  {
    RemoveSpacesOfBlank(phone);
    PhoneLength(RemoveSpaces(phone));
  }

  /** Where the spaces stand never matters: adding one inside a given phone keeps its verdict. */
  lemma PhoneSpacesIgnored(a: string, b: string)
    requires a + b != []
    ensures IsValidPhone(a + " " + b) == IsValidPhone(a + b)
  {
    RemoveSpacesAppend(a + " ", b);
    RemoveSpacesAppend(a, " ");
    RemoveSpacesAppend(a, b);
    assert RemoveSpaces(" ") == [] by {
      assert " "[1..] == [];
    }
    calc {
      RemoveSpaces(a + " " + b);
      RemoveSpaces(a + " ") + RemoveSpaces(b);
      RemoveSpaces(a) + [] + RemoveSpaces(b);
      { assert RemoveSpaces(a) + [] == RemoveSpaces(a); }
      RemoveSpaces(a + b);
    }
    assert |a + " " + b| > 0;
  }

  /** A map has no entries exactly when no key is in it. */
  lemma NoKeys<K, V>(m: map<K, V>)
    ensures |m| == 0 <==> forall k :: k !in m
  {
    if forall k :: k !in m {
      assert m.Keys == {};
    }
  }

  // ----------------------------------------------------------- listing form

  /**
   * The price box of the listing form: a number input whose text is either
   * empty or a number. Text "0" is a non-empty string and so counts as given.
   */
  datatype PriceInput = Blank | Amount(value: real)

  /** The listing form as submitted; a text box left empty holds "". */
  datatype ListingForm = ListingForm(
    title: string,
    category: string,
    species: string,
    description: string,
    price: PriceInput,
    location: string,
    contactName: string,
    contactEmail: string,
    contactPhone: string)

  /** The keys of the error map; `Category` is the `type` field. */
  datatype ListingField =
    | Title | Category | Species | Description | Price
    | Location | ContactName | ContactEmail | ContactPhone

  /** Whether field `f` of `form` is rejected. */
  predicate ListingFails(form: ListingForm, f: ListingField) {
    match f
    case Title => form.title == "" || |Trim(form.title)| < 5
    case Category => form.category == ""
    case Species => form.category == "bird" && (form.species == "" || |Trim(form.species)| < 2)
    case Description => form.description == "" || |Trim(form.description)| < 20
    case Price => form.category != "wanted" && (form.price.Blank? || form.price.value < 0.0)
    case Location => form.location == "" || |Trim(form.location)| < 2
    case ContactName => form.contactName == "" || |Trim(form.contactName)| < 2
    case ContactEmail => form.contactEmail == "" || !IsValidEmail(form.contactEmail)
    case ContactPhone => form.contactPhone != "" && !IsValidPhone(form.contactPhone)
  }

  function ListingMessage(f: ListingField): string {
    match f
    case Title => "Title must be at least 5 characters"
    case Category => "Please select a category"
    case Species => "Species is required for bird listings"
    case Description => "Description must be at least 20 characters"
    case Price => "Please enter a valid price"
    case Location => "Location is required"
    case ContactName => "Contact name is required"
    case ContactEmail => "Please enter a valid email address"
    case ContactPhone => "Please enter a valid NZ phone number"
  }

  /** The position of a field's check in `validateListing`. */
  function ListingRank(f: ListingField): (r: nat)
    ensures r < 9
  {
    match f
    case Title => 0 case Category => 1 case Species => 2 case Description => 3 case Price => 4
    case Location => 5 case ContactName => 6 case ContactEmail => 7 case ContactPhone => 8
  }

  /** Every field of the listing form. */
  const ListingFields: set<ListingField> :=
    {Title, Category, Species, Description, Price, Location, ContactName, ContactEmail, ContactPhone}

  /** The fields of `form` that are rejected. */
  ghost function ListingFailures(form: ListingForm): set<ListingField> {
    set f | f in ListingFields && ListingFails(form, f)
  }

  /** After the first `done` checks, `errors` holds `f` exactly when `f` was checked and is among `fails`. */
  ghost predicate ListingFieldAgrees(fails: set<ListingField>, errors: map<ListingField, string>, done: nat, f: ListingField) {
    f in errors <==> ListingRank(f) < done && f in fails
  }

  /** `ListingFieldAgrees` spelled out field by field, and every recorded field carries its message. */
  ghost predicate ListingErrorsAgree(fails: set<ListingField>, errors: map<ListingField, string>, done: nat) {
    ListingFieldAgrees(fails, errors, done, Title) && ListingFieldAgrees(fails, errors, done, Category)
    && ListingFieldAgrees(fails, errors, done, Species) && ListingFieldAgrees(fails, errors, done, Description)
    && ListingFieldAgrees(fails, errors, done, Price) && ListingFieldAgrees(fails, errors, done, Location)
    && ListingFieldAgrees(fails, errors, done, ContactName) && ListingFieldAgrees(fails, errors, done, ContactEmail)
    && ListingFieldAgrees(fails, errors, done, ContactPhone)
    && forall f | f in errors :: errors[f] == ListingMessage(f)
  }

  /** Once all nine checks are done, agreement field by field is agreement on every field. */
  lemma ListingErrorsComplete(form: ListingForm, errors: map<ListingField, string>)
    requires ListingErrorsAgree(ListingFailures(form), errors, 9)
    ensures forall f :: f in errors <==> ListingFails(form, f)
    ensures forall f | f in errors :: errors[f] == ListingMessage(f)
  {
    forall f ensures f in errors <==> ListingFails(form, f) {
      assert f in ListingFields by {
        match f
        case Title => case Category => case Species => case Description => case Price =>
        case Location => case ContactName => case ContactEmail => case ContactPhone =>
      }
      match f
      case Title => case Category => case Species => case Description => case Price =>
      case Location => case ContactName => case ContactEmail => case ContactPhone =>
    }
  }

  /** One conditional assignment of `validateListing`: the message for `f` is recorded when its check failed. */
  method FlagListingField(ghost fails: set<ListingField>, errors: map<ListingField, string>, ghost done: nat,
                          f: ListingField, failed: bool)
    returns (r: map<ListingField, string>, ghost done': nat)
    requires ListingErrorsAgree(fails, errors, done) && ListingRank(f) == done
    requires failed <==> f in fails
    ensures done' == done + 1
    ensures ListingErrorsAgree(fails, r, done')
    ensures failed <==> f in r
  {
    r, done' := errors, done + 1;
    if failed {
      r := r[f := ListingMessage(f)];
    }
  }

  /** The nine conditional assignments of `validateListing`, in order. */
  method CheckListingFields(form: ListingForm) returns (errors: map<ListingField, string>)
    ensures ListingErrorsAgree(ListingFailures(form), errors, 9)
  {
    ghost var fails := ListingFailures(form);
    errors := map[];
    ghost var done := 0;
    errors, done := FlagListingField(fails, errors, done, Title, form.title == "" || |Trim(form.title)| < 5);
    errors, done := FlagListingField(fails, errors, done, Category, form.category == "");
    errors, done := FlagListingField(fails, errors, done, Species, form.category == "bird" && (form.species == "" || |Trim(form.species)| < 2));
    errors, done := FlagListingField(fails, errors, done, Description, form.description == "" || |Trim(form.description)| < 20);
    errors, done := FlagListingField(fails, errors, done, Price, form.category != "wanted" && (form.price.Blank? || form.price.value < 0.0));
    errors, done := FlagListingField(fails, errors, done, Location, form.location == "" || |Trim(form.location)| < 2);
    errors, done := FlagListingField(fails, errors, done, ContactName, form.contactName == "" || |Trim(form.contactName)| < 2);
    errors, done := FlagListingField(fails, errors, done, ContactEmail, form.contactEmail == "" || !IsValidEmail(form.contactEmail));
    errors, done := FlagListingField(fails, errors, done, ContactPhone, form.contactPhone != "" && !IsValidPhone(form.contactPhone));
  }

  /**
   * `validateListing`: the error map holds exactly the failing fields, each with
   * its message, and the form is valid exactly when no field fails.
   */
  method ValidateListing(form: ListingForm) returns (isValid: bool, errors: map<ListingField, string>)
    ensures forall f :: f in errors <==> ListingFails(form, f)
    ensures forall f | f in errors :: errors[f] == ListingMessage(f)
    ensures isValid <==> forall f :: !ListingFails(form, f)
  {
    errors := CheckListingFields(form);
    ListingErrorsComplete(form, errors);
    isValid := |errors| == 0;
    NoKeys(errors);
    if !isValid {
      var f :| f in errors;
      assert ListingFails(form, f);
    }
  }

  /** The emptiness tests in front of the length tests are redundant: an empty text trims to nothing. */
  lemma ListingLengthRules(form: ListingForm)
    ensures ListingFails(form, Title) <==> |Trim(form.title)| < 5
    ensures ListingFails(form, Description) <==> |Trim(form.description)| < 20
    ensures ListingFails(form, Location) <==> |Trim(form.location)| < 2
    ensures ListingFails(form, ContactName) <==> |Trim(form.contactName)| < 2
    ensures ListingFails(form, Species) <==> form.category == "bird" && |Trim(form.species)| < 2
  {
  }

  /** A wanted listing needs no price; a species is demanded of bird listings only. */
  lemma ListingCategoryRules(form: ListingForm)
    ensures form.category == "wanted" ==> !ListingFails(form, Price)
    ensures form.category != "bird" ==> !ListingFails(form, Species)
    ensures form.category == "" ==> ListingFails(form, Category) && !ListingFails(form, Species)
  {
  }

  /** The phone is optional: an error names a phone that was given and is not a New Zealand number. */
  lemma ListingPhoneRule(form: ListingForm)
    ensures ListingFails(form, ContactPhone) <==>
      form.contactPhone != "" && !FirstAlternative(RemoveSpaces(form.contactPhone))
  {
    PhoneFirstAlternativeSuffices(form.contactPhone);
  }

  /**
   * The price box holds text, so "0" is a given price: zero is accepted, a
   * blank box and a negative amount are refused, and a wanted listing is never
   * refused for its price.
   */
  lemma ListingPriceRule(form: ListingForm)
    ensures form.category == "wanted" ==> !ListingFails(form, Price)
    ensures form.category != "wanted" && form.price == Amount(0.0) ==> !ListingFails(form, Price)
    ensures form.category != "wanted" && form.price == Blank ==> ListingFails(form, Price)
    ensures form.category != "wanted" && form.price.Amount? && form.price.value < 0.0 ==> ListingFails(form, Price)
    ensures form.price.Amount? && form.price.value >= 0.0 ==> !ListingFails(form, Price)
  {
  }

  // ----------------------------------------------------------- contact form

  datatype ContactForm = ContactForm(name: string, email: string, message: string)

  datatype ContactField = Name | Email | Message

  predicate ContactFails(form: ContactForm, f: ContactField) {
    match f
    case Name => form.name == "" || |Trim(form.name)| < 2
    case Email => form.email == "" || !IsValidEmail(form.email)
    case Message => form.message == "" || |Trim(form.message)| < 10
  }

  function ContactMessage(f: ContactField): string {
    match f
    case Name => "Name is required"
    case Email => "Please enter a valid email address"
    case Message => "Message must be at least 10 characters"
  }

  function ContactRank(f: ContactField): (r: nat)
    ensures r < 3
  {
    match f
    case Name => 0 case Email => 1 case Message => 2
  }

  ghost predicate ContactFieldAgrees(form: ContactForm, errors: map<ContactField, string>, done: nat, f: ContactField) {
    f in errors <==> ContactRank(f) < done && ContactFails(form, f)
  }

  ghost predicate ContactErrorsAgree(form: ContactForm, errors: map<ContactField, string>, done: nat) {
    ContactFieldAgrees(form, errors, done, Name) && ContactFieldAgrees(form, errors, done, Email)
    && ContactFieldAgrees(form, errors, done, Message)
    && forall f | f in errors :: errors[f] == ContactMessage(f)
  }

  lemma ContactErrorsComplete(form: ContactForm, errors: map<ContactField, string>)
    requires ContactErrorsAgree(form, errors, 3)
    ensures forall f :: f in errors <==> ContactFails(form, f)
    ensures forall f | f in errors :: errors[f] == ContactMessage(f)
  {
    forall f ensures f in errors <==> ContactFails(form, f) {
      match f
      case Name => case Email => case Message =>
    }
  }

  /** One conditional assignment of `validateContactForm`. */
  method FlagContactField(ghost form: ContactForm, errors: map<ContactField, string>, ghost done: nat,
                          f: ContactField, failed: bool)
    returns (r: map<ContactField, string>, ghost done': nat)
    requires ContactErrorsAgree(form, errors, done) && ContactRank(f) == done
    requires failed == ContactFails(form, f)
    ensures done' == done + 1
    ensures ContactErrorsAgree(form, r, done')
    ensures failed <==> f in r
  {
    r, done' := errors, done + 1;
    if failed {
      r := r[f := ContactMessage(f)];
    }
  }

  /** `validateContactForm`: the same shape as `ValidateListing`, over the three contact fields. */
  method ValidateContactForm(form: ContactForm) returns (isValid: bool, errors: map<ContactField, string>)
    ensures forall f :: f in errors <==> ContactFails(form, f)
    ensures forall f | f in errors :: errors[f] == ContactMessage(f)
    ensures isValid <==> forall f :: !ContactFails(form, f)
  {
    errors := map[];
    ghost var done := 0;
    errors, done := FlagContactField(form, errors, done, Name, form.name == "" || |Trim(form.name)| < 2);
    errors, done := FlagContactField(form, errors, done, Email, form.email == "" || !IsValidEmail(form.email));
    errors, done := FlagContactField(form, errors, done, Message, form.message == "" || |Trim(form.message)| < 10);
    ContactErrorsComplete(form, errors);
    isValid := |errors| == 0;
    NoKeys(errors);
    if !isValid {
      var f :| f in errors;
      assert ContactFails(form, f);
    }
  }

  /** The contact form is accepted exactly when the trimmed name has two characters, the address is valid and the trimmed message has ten. */
  lemma ContactRules(form: ContactForm)
    ensures (forall f :: !ContactFails(form, f)) <==>
      |Trim(form.name)| >= 2 && IsValidEmail(form.email) && |Trim(form.message)| >= 10
  {
    if |Trim(form.name)| >= 2 && IsValidEmail(form.email) && |Trim(form.message)| >= 10 {
      forall f ensures !ContactFails(form, f) {
        match f
        case Name =>
        case Email =>
        case Message =>
      }
    } else {
      assert !IsValidEmail("");
      assert ContactFails(form, Name) || ContactFails(form, Email) || ContactFails(form, Message);
    }
  }
}

=== FILE: wrappers.dfy ===
/** The optional value used wherever the JavaScript code has `undefined` or `null`. */
module Wrappers {

  datatype Option<+T> = None | Some(value: T) {

    /** Returns the value held in Some, or `default` when there is none. */
    function GetOr(default: T): T {
      match this
      case Some(v) => v
      case None => default
    }
  }
}
